=== FILE: README.md ===
# Bank-statement extraction: a Dafny model

This project models the data-handling core of a small bank-statement reader
(*estados de cuenta*). A PDF statement is uploaded. Its pages are rendered to
images and shown to a vision model in batches of six, which picks the pages
that hold the table of movements. Those pages are then sent in groups of two,
and the model extracts rows of `fecha`, `concepto`, `retiros`, `depositos` and
`saldo`. The server normalises each row and parses amounts with `safeNumber`.
It then drops repeated rows. A browser page shows the rows, filters them and
exports them as CSV.

There are two servers. `server.cjs` is the Electron variant: it renders with
mutool and throws on a failed page. `index.js` is the standalone variant: it
renders with pdf2pic, skips failed pages, and first classifies the PDF with
`isScannedLike`. The amount parser, row normalisation and de-duplication are
identical in the two files and are modelled once.

Modules:

- `Js`: JavaScript values (`null`, `undefined`, booleans, numbers with their
  non-finite cases, strings). It also defines `Host`, which holds the two host operations
  kept abstract: `toLowerCase` and the number-to-string conversion.
- `Seqs` and `Strings`: the array and string built-ins the code uses.
  - `Seqs`: `filter`, fixed-size slicing, sorting a set of page numbers.
  - `Strings`: `trim`, `indexOf`, `lastIndexOf`, `replace`, `replaceAll`,
    `includes`, `join` and `split`.
- `Amount`: `safeNumber`. This is the cleaning pipeline plus a decimal grammar
  standing for `Number(s)`, with overflow to `Infinity` beyond the largest
  double.
- `Movements` and `Dedupe`: `normalizeMovimientos` and `dedupeMovimientos`,
  including the keyed keep-first loop.
- `Classifier`: `isScannedLike`, including the global date regex as a scan.
- `JsonSlice`: the slicing step of `tryParseJsonLoose`.
- `Pipeline`:
  - page detection, extraction and the fallback pages for both servers;
  - the vision model as an `Oracle` of two functions, one per request kind;
  - page rendering as a predicate `render(p)` saying whether page `p` converts.
- `Frontend`: `escapeHtml`, the `applyFilter` rule, and the lines of
  `downloadCSV`.

## Model

| member | source | states |
|---|---|---|
| Amount.SafeNumber | server.cjs:69-82 | `null`/`undefined` give 0. A finite number is returned unchanged and a non-finite one gives 0. A string or a boolean is read from `String(x)` and always gives a finite value, strictly inside the double range. |
| Amount.Clean | server.cjs:73-79 | The cleaned string holds only digits, `.` and `-`. |
| Amount.CleanCharacterization | server.cjs:73-79 | When both `,` and `.` occur: every `.` is dropped, only the first `,` becomes `.`, and everything but digits and `-` is removed around it. Otherwise every `,` is dropped along with every other non-numeral character. |
| Amount.CleanBothSeparators | server.cjs:74-75 | With both separators present, the cleaned string is the signed digits before the first comma, a point, then the signed digits after it. |
| Amount.CommaBeforePoint | server.cjs:74-75 | `a,b.c` (no `,` in `a`, digits only) cleans to `a.bc`. So `"1,234.56"` reads as 1.23456, not 1234.56. |
| Amount.CommaWithoutPoint | server.cjs:76-77 | Without a point, a comma is simply dropped: `a,b` cleans to `ab`. |
| Amount.CleanOneSeparatorKind | server.cjs:76-79 | When the two separators do not both occur, cleaning is filtering to digits, `.` and `-`. |
| Amount.ParseDecimalAccepts | server.cjs:79-81 | The decimal grammar accepts a cleaned string exactly when it is empty, or an optional leading `-` followed by digits with at most one `.`, no further `-`, and at least one digit. |
| Amount.ParseDecimal | server.cjs:80 | `Number` on a cleaned string: a value read from text with a leading `-` is at most 0, and one read from any other text is at least 0. |
| Amount.ToNumber | server.cjs:80-81 | `Number(s)` is `NaN` exactly when the grammar rejects `s`. A finite result is the value the grammar reads, inside the double range. An infinite result comes from a value at or beyond the overflow bound. |
| Amount.OverflowRead | server.cjs:80-81 | A string whose cleaned form reads beyond the double range becomes an infinity, which `safeNumber` turns into 0. |
| Amount.SafeNumberMalformed | server.cjs:79-81 | A string whose cleaned form is not a well-formed numeral (`"1.2.3"`, `"-"`, `"1-2"`) gives 0. |
| Amount.ReadsAs | server.cjs:79-81 | A string whose cleaned form is a well-formed numeral with a value inside the double range reads as exactly that value. |
| Amount.IntegerRoundTrip | server.cjs:79-81 | An integer written in decimal reads back as itself below the double overflow bound, and as 0 at or beyond it. |
| Amount.UsGroupedRoundTrip | server.cjs:73-81 | A natural number written with `$` and comma thousands separators reads back as itself. |
| Amount.LatamGroupedRoundTrip | server.cjs:73-81 | A number of 1000 or more, written with point thousands separators and a comma before the fraction (`1.234,56`), reads back as integer plus fraction. |
| Amount.PointRead | server.cjs:80 | `a.b` with digit strings `a` and `b` parses as `a + b / 10^len(b)`. |
| Amount.UngroupThousands | server.cjs:77 | Removing the separators from a grouped number gives back its digits. |
| Amount.GroupedSeparator | server.cjs:74-77 | A grouped number holds a separator exactly when it has more than three digits, so `1.234,56` takes the both-separators path and `123,45` does not. |
| AmountExamples.CommaThousandsExample | server.cjs:77 | `"1,234"` reads as 1234. |
| AmountExamples.LettersExample | server.cjs:79-81 | `"abc"` reads as 0. |
| AmountExamples.MalformedExamples | server.cjs:79-81 | `"1.2.3"` and `"-"` read as 0. |
| AmountExamples.NoNumeralReadsZero | server.cjs:79-81 | Text with no digit, `.` or `-` cleans to the empty string and reads as 0. |
| AmountExamples.BooleanExample | server.cjs:73-81 | A boolean amount is read from `String(b)`, that is `"true"` or `"false"`, and is worth 0. |
| Movements.NormalizeRow | server.cjs:85-91 | The row comes out normal: both texts are trimmed. A string field gives its trimmed text, and a falsy field (`null`, `undefined`, `false`, 0, `NaN`, `""`) gives `""`. Each amount is 0 when missing, kept when a finite number, 0 when a non-finite one, and inside the double range when read from text. |
| Movements.NormalizeAll | server.cjs:85-91 | One normalised row per raw row, in order. |
| Movements.NormalizeMovimientos | server.cjs:84-85 | A missing `movimientos` gives no rows. Otherwise there is one row per element, and row `i` is the normalisation of element `i`. |
| Movements.NormalizedRowsAreNormal | server.cjs:86-87 | Every normalised row has its date and description already trimmed. |
| Movements.NormalizeRowIdempotent | server.cjs:84-92 | A normalised row, fed back as raw input, comes out unchanged. |
| Movements.NormalizeConcat | server.cjs:386 | Normalising concatenated replies equals concatenating the normalised replies. |
| Movements.DedupeMovimientos | server.cjs:94-110 | The result keeps, in order, the first row of each key. It is a subsequence of the input, no two kept rows share a key, and every input key is kept. |
| Movements.KeyShape | server.cjs:98-104 | The key is the trimmed date, `\|`, the trimmed lower-cased description, `\|`, then the three amounts joined by `\|`. |
| Movements.Key | server.cjs:98-104 | The key is the five parts joined with `\|`. When no part holds a `\|`, splitting the key at `\|` gives the five parts back. |
| Movements.KeyExact | server.cjs:98-105 | When no key part contains `\|`, two rows share a key exactly when all five parts agree. |
| Movements.KeyCollision | server.cjs:98-105 | The join can collide: date `a\|b` with description `c`, and date `a` with description `b\|c`, give the same key. The second row is then dropped although its date differs. |
| Movements.CaseInsensitiveDescription | server.cjs:100-105 | Rows that differ only in the case of the description are duplicates. |
| Movements.DifferentPartsKept | server.cjs:98-107 | Two rows with different key parts, none containing `\|`, are both kept. |
| Dedupe.KeepFirstLoop | server.cjs:95-109 | The loop with its `seen` set computes the keep-first de-duplication. |
| Dedupe.KeepFirstKeys | server.cjs:105-107 | Keep-first keeps every key of the input and no key twice. |
| Dedupe.KeepFirstSubsequence | server.cjs:97-108 | Keep-first drops rows and never reorders them. |
| Dedupe.KeepFirstIsFirst | server.cjs:105-107 | Every kept row is the first row of its key in the input. |
| Dedupe.KeepFirstDistinct | server.cjs:94-110 | Input whose keys are already distinct passes unchanged. |
| Dedupe.KeepFirstIdempotent | server.cjs:94-110 | De-duplicating twice is de-duplicating once. |
| Dedupe.KeepFirstPair | server.cjs:105-107 | Of two rows, the second is dropped exactly when its key equals the first's. |
| Classifier.IsScannedLike | index.js:152-167 | An empty trimmed text gives true. So does a length below 800, a file above 1572864 bytes with length below 3000, a letter-and-digit count below a quarter of `max(1, len)`, or fewer than 3 date matches. A false result means all five fail. |
| Classifier.PrintableRatio | index.js:157-159 | The ratio lies in [0, 1], and it is below 0.25 exactly when `4 * (letters + digits) < max(1, len)`. |
| Classifier.ScannedWhenBlank | index.js:153-154 | A missing text, or one of white space only, is classified as scanned. |
| Classifier.DateCountFrom | index.js:161-164 | Matches do not overlap: ten characters per match never exceed the text length. |
| Classifier.DateCountFinds | index.js:161-164 | The global match counts something exactly when the date pattern, with its word boundaries, matches somewhere. |
| Classifier.DateCountLoop | index.js:161-164 | A `lastIndex` scan that resumes after each match computes the match count. |
| Classifier.ReadableHasDates | index.js:161-166 | A text classified as not scanned contains a matching date. |
| JsonSlice.LooseJsonText | server.cjs:226-234 | The trimmed reply, cut from its first `{` to its last `}` when both exist in that order (the cut starts with `{`, ends with `}`, and has neither brace outside it), else the whole trimmed reply. |
| JsonSlice.LooseJsonTextIdempotent | server.cjs:226-234 | Slicing an already sliced text changes nothing. |
| JsonSlice.BracedPassesWhole | server.cjs:227-231 | A text that starts with `{` and ends with `}` is parsed whole. |
| Pipeline.Render | server.cjs:160-168 | The Electron renderer succeeds only when every page converts, and then yields the whole chunk. The standalone renderer (index.js:283-295) yields, in order, exactly the pages that convert. |
| Pipeline.ValidPages | server.cjs:356-358 | Every page a reply contributes lies in `1..pageCount`. |
| Pipeline.ValidPagesExactly | server.cjs:356-358 | A page is kept exactly when the reply names it as an integer in `1..pageCount`. Nothing checks that it belongs to the batch that was asked about. |
| Pipeline.DetectBatch | index.js:327-351 | A batch adds only pages in `1..pageCount`. |
| Pipeline.DetectBatchRender | index.js:327-351 | In the Electron variant (server.cjs:160-168) one failed render throws. In the standalone variant a batch with no rendered page is skipped without a request. |
| Pipeline.DetectionBatches | server.cjs:332-337 | The batches cover `1..pageCount` in order, each holding 1 to 6 pages. |
| Pipeline.Reported | server.cjs:336-362 | A page is in the union exactly when some batch reply names it. |
| Pipeline.DetectLoop | server.cjs:336-362 | The accumulating loop over batches adds only pages in `1..pageCount` to a `found` set that already lies in that range. |
| Pipeline.ReportedDone | server.cjs:336-362 | The union throws exactly when some batch throws. |
| Pipeline.DetectLoopGathers | server.cjs:334-362 | The loop over batches adds to `found` exactly the union of the batch replies. |
| Pipeline.DetectTransactionPages | server.cjs:331-365 | Detected pages are strictly ascending, so without repeats, and lie in `1..pageCount`. |
| Pipeline.DetectedPages | server.cjs:331-365 | A page is returned exactly when some batch reply names it, and detection throws exactly when some batch throws. |
| Pipeline.ExtractGroupRender | index.js:376-399 | In the Electron variant (server.cjs:160-168) a failed render throws. In the standalone variant a group with no rendered page adds nothing. |
| Pipeline.ExtractGroup | server.cjs:375-396 | The rows one group contributes are normalised: their date and description are already trimmed. |
| Pipeline.NothingRendered | index.js:283-295 | The standalone renderer yields nothing for a chunk none of whose pages converts. |
| Pipeline.GroupRowsDone | server.cjs:372-397 | Gathering the rows of all groups throws exactly when some group throws. |
| Pipeline.ExtractLoop | server.cjs:372-397 | `all = all.concat(...)` only appends: the rows gathered so far stay at the front of the result. |
| Pipeline.ExtractLoopAppends | server.cjs:370-397 | The loop appends every group's rows to `all`, in order. |
| Pipeline.ExtractMovimientos | server.cjs:367-400 | Extracted rows are normalised and have pairwise distinct keys. |
| Pipeline.ExtractionIsDedupeOfGroups | server.cjs:367-400 | Extraction is the de-duplication of the in-order concatenation of the normalised replies over groups of two pages. |
| Pipeline.ElectronPages | server.cjs:434-438 | A page count of 0 throws. Otherwise the choice throws exactly when detection throws. When detection finds nothing for a positive count, the pages are `1..min(6, pageCount)`. When it finds some, they are used as they are. Every chosen page lies in `1..pageCount`, and a positive count never yields an empty choice. |
| Pipeline.ElectronUpload | server.cjs:434-440 | The upload succeeds exactly when the page choice and the extraction from those pages both do. It then reports the chosen pages and the rows extracted from them. The pages lie in `1..pageCount` and the rows have distinct keys. |
| Pipeline.ScannedPages | index.js:424-433 | Without a positive page count the pages are 1 to 6. With one, the choice throws exactly when detection throws, gives 1 to 6 when detection finds nothing, and otherwise gives the detected pages. The list is never empty. |
| Pipeline.TextPages | index.js:447-449 | With a page count of 0 the pages are 1 to 6. Otherwise the choice throws exactly when detection throws, gives 1 to 6 when detection finds nothing, and otherwise gives the detected pages. The list is never empty. |
| Pipeline.BranchesChooseSamePages | index.js:424-449 | The scanned branch and the text branch choose the same pages for every page count. |
| Pipeline.ScannedFallbackBeyondCount | index.js:433 | With fewer than six pages and nothing detected, the fallback names pages 1 to 6, some beyond the document. |
| Pipeline.ExtractFrom | index.js:451-458 | Succeeds exactly when pages were chosen and the extraction from them succeeds. It then reports those pages and the rows `extractMovimientosFromPages` returns for them, with distinct keys. |
| Pipeline.StandaloneUpload | index.js:419-458 | The label is `vision_scanned` exactly when `isScannedLike` holds, else `vision`. The pages are those of the branch `isScannedLike` selects (scanned or text). The rows are the extraction from those pages. The upload succeeds exactly when that extraction does. The pages are non-empty and the rows have distinct keys. |
| Pipeline.UploadIsTextBranch | index.js:423-458 | Whatever the classification, the upload succeeds exactly when the text branch does, with the text branch's pages and rows. |
| Pipeline.ScannedOnlyLabels | index.js:423-458 | Whether the text looks scanned changes only the label, never the pages or the rows. |
| Frontend.EscapeHtml | public/app.js:53-60 | A falsy input (`null`, `undefined`, `false`, 0, `NaN`, `""`) gives `""`. A string, or a non-zero finite number in its `String` form, is escaped character by character. |
| Frontend.EscapeEach | public/app.js:53-60 | Escaped text contains no `<`, `>`, `"` or `'`. |
| Frontend.EscapeIsPerCharacter | public/app.js:54-59 | Because `&` is replaced first, the five `replaceAll` calls write each character as its own entity, with no double escaping. |
| Frontend.UnescapeEscape | public/app.js:54-59 | Decoding the entities of an escaped text gives back the original text. |
| Frontend.ApplyFilter | public/app.js:89-100 | A query that is empty after trimming and lower-casing keeps every row. Otherwise a row is kept exactly when its lower-cased `fecha concepto retiros depositos saldo` text contains the query. Each matching row is kept as often as it occurs, in the original order. |
| Frontend.SearchText | public/app.js:95 | When lower-casing works character by character, the searched text starts with the lower-cased date. |
| Frontend.SearchFindsDate | public/app.js:90-96 | Under the same condition, searching for a row's own trimmed date finds the row. |
| Frontend.ExportRows | public/app.js:185-187 | Export uses the filtered rows when there are any, else all rows. The result is empty only when both are. |
| Frontend.ExportAfterFilter | public/app.js:89-100 | After a search, export writes a subsequence of the rows. A query that matches no row exports every row. A non-empty query that matches some row exports exactly the matching rows. |
| Frontend.Quote | public/app.js:107-108 | A text field is wrapped in double quotes. |
| Frontend.QuoteRoundTrip | public/app.js:107-108 | Under RFC 4180 section 2 rule 7, with inner quotes doubled, reading the field back gives the original text. |
| Frontend.CsvLines | public/app.js:102-115 | The header `fecha,concepto,retiros,depositos,saldo` comes first, then one line per row in order. |
| Frontend.CsvLine | public/app.js:107-113 | A row's line is the quoted date, a comma, the quoted description, a comma, then the three amounts in their `String` form, unquoted and joined by commas. |
| Frontend.Csv | public/app.js:117 | The file is the header alone when there are no rows. Otherwise it starts with the header, a line break and the first row's line. |
| Frontend.CsvLineCount | public/app.js:103-117 | When no field holds a line break, the joined file splits back into the header plus exactly one line per row. |
| Seqs.Chunks | server.cjs:336-337 | The `slice(i, i + size)` loop: the slices concatenate to the input, each holds 1 to `size` elements, and all but the last hold exactly `size`. |
| Seqs.SortedElements | server.cjs:364 | `Array.from(set).sort((a, b) => a - b)`: strictly ascending, holding exactly the elements of the set. |
| Strings.TrimIsSlice | server.cjs:86 | `trim` keeps a slice of the text with only white space before and after it. |
| Strings.TrimEmpty | server.cjs:86 | Trimming leaves nothing exactly when the text is all white space. |
| Strings.TrimIdempotent | server.cjs:86 | Trimming twice is trimming once. |
| Strings.SplitJoin | server.cjs:98-104 | Joining parts that do not contain the separator and splitting again gives the parts back. |

## Left out

- HTTP and upload handling, CORS and static files are not modelled, because
  none of them is data logic. Neither are decryption with qpdf, the
  encryption check, temporary files, the server start/stop, the Electron
  shell and the DOM.
- Rendering with mutool or pdf2pic is left out as an external tool. It is the
  parameter `render(p)`. One `render` serves both the detection pass and the
  extraction pass, although the code renders them at different densities: a
  page that converts in one pass is taken to convert in the other.
- The vision model request, its base64 images, `extractOutputText` and
  `JSON.parse` are left out as network and parsing code. They are the
  parameter `Oracle`, which returns the parsed `pages` or `movimientos` field
  or throws. Only the slicing step of `tryParseJsonLoose` is modelled
  (`JsonSlice`).
- `toLowerCase` and `String(number)` are left out as host behaviour. They are
  the fields of `Host`, and the properties that mention them hold for any
  host function, with two exceptions.
- Frontend.SearchText and Frontend.SearchFindsDate hold only when
  `toLowerCase` maps a concatenation to the concatenation of the lower-cased
  parts (`LowerDistributes`). JavaScript's `toLowerCase` is not like that in
  general: the final-sigma rule lower-cases `"AΣ"` to `"aς"`, while `"A"` and
  `"Σ"` lower-cased separately give `"aσ"`.
- Binary floating point is not modelled. Amounts are exact reals. `Number(s)`
  keeps the decimal value and turns to `Infinity` only at the double overflow
  bound, so rounding to the nearest double is not modelled.
- Lengths count characters, not UTF-16 code units. This matters only for
  characters outside the Basic Multilingual Plane, in `isScannedLike`'s
  `length`.
- `pageCount` is an integer: `numpages` is the page count the PDF parser
  reports, a whole number. A fractional count is not represented. For one
  between 0 and 1, `!pageCount` is false, so the Electron server would not
  throw and would answer with no pages; `Pipeline.ElectronPages` covers only
  whole counts, where 0 throws.
- A row field that is an object or an array is not represented: `Value`
  covers the JSON scalars and `undefined` only.
- The elements of `movimientos` are objects; a `null` element would throw on
  `m.fecha`, which the model does not represent.
- `fmtMoney` and the table rendering are left out as locale formatting and
  DOM code.
- Frontend.UnescapeEscape: states the round trip for a left-to-right entity
  decoder, not for a chain of `replaceAll` calls that decodes `&amp;` last.
- Literal strings such as `"1.234,56"`, `"1,234.56"` and `"$ 45.00"` are
  covered by the general lemmas, not as separate literal examples:
  - `"1.234,56"` by `Amount.LatamGroupedRoundTrip`;
  - `"1,234.56"` by `Amount.CommaBeforePoint`;
  - `"$ 45.00"` by `Amount.PointRead` and `Amount.CleanOneSeparatorKind`.

## Behaviour worth knowing

- `"1,234.56"` reads as 1.23456: every `.` is removed and the first `,`
  becomes `.` (`Amount.CommaBeforePoint`).
- A failed model request ends the whole upload. The `try` blocks around each
  model request have only a `finally` (server.cjs:342-361 and 379-396,
  index.js:331-350 and 381-398), so the error leaves page detection or
  extraction and no later batch runs. The endpoint's own `catch`
  (server.cjs:448-452, index.js:459-461) then answers `500` with
  `{ ok: false, error }`. `Outcome.Aborted` stands for that answer.
- Detected page numbers are checked only against `1..pageCount`, not against
  the batch they were asked about (`Pipeline.ValidPagesExactly`).

=== FILE: amount.dfy ===
/** `safeNumber` (server.cjs:69-82, the same code at index.js:104-121): the
    normaliser that turns an amount read by the oracle (a number, a locale
    formatted string, or nothing) into a finite number, 0 when it cannot. */
module Amount {
  import opened Js
  import opened Seqs
  import opened Strings

  predicate IsDigit(c: char) {
    '0' <= c <= '9'
  }

  /** The characters the last cleaning step keeps: `/[^\d.-]/g` deletes the rest. */
  predicate IsNumeralChar(c: char) {
    IsDigit(c) || c == '.' || c == '-'
  }

  /** A digit or a minus sign: what is left of a numeral once the decimal point is accounted for. */
  predicate IsSignedDigit(c: char) {
    IsDigit(c) || c == '-'
  }

  predicate NotDollar(c: char) { c != '$' }
  predicate NotWhiteSpace(c: char) { !IsWhiteSpace(c) }
  predicate NotDot(c: char) { c != '.' }
  predicate NotComma(c: char) { c != ',' }

  /** `String(x).replace(/\$/g, "").replace(/\s/g, "").trim()`. */
  function StripCurrency(s: string): string {
    Trim(Filter(Filter(s, NotDollar), NotWhiteSpace))
  }

  /** With both `,` and `.` present the string is read the Latin-American way:
      every `.` is a thousands separator and goes, and the first `,` becomes the
      decimal point. Otherwise every `,` is a thousands separator and goes. */
  function ResolveSeparators(s: string): string {
    if ',' in s && '.' in s then ReplaceFirst(Filter(s, NotDot), ',', '.')
    else Filter(s, NotComma)
  }

  /** The string handed to `Number`: only digits, `.` and `-` remain. */
  function Clean(s: string): (r: string)
    ensures forall i :: 0 <= i < |r| ==> IsNumeralChar(r[i])
  {
    Filter(ResolveSeparators(StripCurrency(s)), IsNumeralChar)
  }

  /** The cleaning pipeline stated without its intermediate steps. Dollar signs,
      white space and stray characters are simply dropped. With both separators
      present, the first `,` of the ORIGINAL string is the decimal point and
      everything else but digits and `-` is dropped on both sides of it; with at
      most one kind of separator every `,` is dropped and every `.` is kept. */
  lemma {:induction false} CleanCharacterization(s: string)
    ensures ',' in s && '.' in s ==>
      var k := IndexOf(s, ',').value;
      Clean(s) == Filter(s[..k], IsSignedDigit) + "." + Filter(s[k + 1..], IsSignedDigit)
    ensures !(',' in s && '.' in s) ==> Clean(s) == Filter(s, IsNumeralChar)
  {
    var t := Filter(s, IsVisible);
    CleanOfVisible(s);
    if ',' in s && '.' in s {
      CleanBothSeparators(s);
    } else {
      assert ResolveSeparators(t) == Filter(t, NotComma);
      SignedDigitChars();
      FilterFilter(t, NotComma, IsNumeralChar, IsNumeralChar);
      FilterFilter(s, IsVisible, IsNumeralChar, IsNumeralChar);
    }
  }

  /** Stripping `$` and white space keeps exactly the visible characters, and
      keeps every separator. */
  lemma {:induction false} CleanOfVisible(s: string)
    ensures Clean(s) == Filter(ResolveSeparators(Filter(s, IsVisible)), IsNumeralChar)
    ensures ',' in Filter(s, IsVisible) <==> ',' in s
    ensures '.' in Filter(s, IsVisible) <==> '.' in s
  {
    StripCurrencyIsFilter(s);
    VisibleSeparators();
    FilterMember(s, IsVisible, ',');
    FilterMember(s, IsVisible, '.');
  }

  lemma VisibleSeparators()
    ensures IsVisible(',') && IsVisible('.')
  {
  }

  lemma {:induction false} StripCurrencyIsFilter(s: string)
    ensures StripCurrency(s) == Filter(s, IsVisible)
  {
    var t := Filter(Filter(s, NotDollar), NotWhiteSpace);
    TrimWithoutWhiteSpace(t);
    FilterFilter(s, NotDollar, NotWhiteSpace, IsVisible);
  }

  /** Both separators: the dots go and the first comma becomes the point. */
  lemma {:induction false} ResolveBoth(t: string)
    requires ',' in t && '.' in t
    ensures var k := IndexOf(t, ',').value;
      ResolveSeparators(t) == Filter(t[..k], NotDot) + "." + Filter(t[k + 1..], NotDot)
  {
    var k := IndexOf(t, ',').value;
    var a', b' := Filter(t[..k], NotDot), Filter(t[k + 1..], NotDot);
    FilterAround(t, k, NotDot);
    assert Filter(t, NotDot) == a' + [','] + b';
    FilterMember(t[..k], NotDot, ',');
    ReplaceFirstAfter(a', b', ',', '.');
  }

  /** The first `,` of `s` is the first `,` of what stripping keeps. */
  lemma {:induction false} VisibleAroundComma(s: string)
    requires ',' in s
    ensures ',' in Filter(s, IsVisible)
    ensures var k, j := IndexOf(s, ',').value, IndexOf(Filter(s, IsVisible), ',').value;
      && Filter(s, IsVisible)[..j] == Filter(s[..k], IsVisible)
      && Filter(s, IsVisible)[j + 1..] == Filter(s[k + 1..], IsVisible)
  {
    var k := IndexOf(s, ',').value;
    var a, b := Filter(s[..k], IsVisible), Filter(s[k + 1..], IsVisible);
    FilterAround(s, k, IsVisible);
    assert Filter([s[k]], IsVisible) == [','];
    assert Filter(s, IsVisible) == a + [','] + b;
    FilterMember(s[..k], IsVisible, ',');
    IndexOfAfter(a, ',', b);
  }

  lemma {:induction false} CleanBothSeparators(s: string)
    requires ',' in s && '.' in s
    ensures var k := IndexOf(s, ',').value;
      Clean(s) == Filter(s[..k], IsSignedDigit) + "." + Filter(s[k + 1..], IsSignedDigit)
  {
    CleanOfVisible(s);
    VisibleAroundComma(s);
    var t := Filter(s, IsVisible);
    var k, j := IndexOf(s, ',').value, IndexOf(t, ',').value;
    ResolveBoth(t);
    var a', b' := Filter(t[..j], NotDot), Filter(t[j + 1..], NotDot);
    FilterConcat(a' + ['.'], b', IsNumeralChar);
    FilterConcat(a', ['.'], IsNumeralChar);
    assert Filter(['.'], IsNumeralChar) == ['.'];
    assert t[..j] == Filter(s[..k], IsVisible);
    assert t[j + 1..] == Filter(s[k + 1..], IsVisible);
    assert ResolveSeparators(t) == a' + ['.'] + b';
    assert Clean(s) == Filter(a', IsNumeralChar) + ['.'] + Filter(b', IsNumeralChar);
    SignedDigitChars();
    calc {
      Filter(a', IsNumeralChar);
      Filter(Filter(Filter(s[..k], IsVisible), NotDot), IsNumeralChar);
      { FilterFilter(s[..k], IsVisible, NotDot, IsVisibleNotDot); }
      Filter(Filter(s[..k], IsVisibleNotDot), IsNumeralChar);
      { FilterFilter(s[..k], IsVisibleNotDot, IsNumeralChar, IsSignedDigit); }
      Filter(s[..k], IsSignedDigit);
    }
    calc {
      Filter(b', IsNumeralChar);
      Filter(Filter(Filter(s[k + 1..], IsVisible), NotDot), IsNumeralChar);
      { FilterFilter(s[k + 1..], IsVisible, NotDot, IsVisibleNotDot); }
      Filter(Filter(s[k + 1..], IsVisibleNotDot), IsNumeralChar);
      { FilterFilter(s[k + 1..], IsVisibleNotDot, IsNumeralChar, IsSignedDigit); }
      Filter(s[k + 1..], IsSignedDigit);
    }
  }

  lemma SignedDigitChars()
    ensures forall c: char :: IsSignedDigit(c) == (IsVisibleNotDot(c) && IsNumeralChar(c))
    ensures forall c: char :: IsNumeralChar(c) == (IsVisible(c) && IsNumeralChar(c))
    ensures forall c: char :: IsNumeralChar(c) == (NotComma(c) && IsNumeralChar(c))
  {
  }

  predicate IsVisible(c: char) { NotDollar(c) && NotWhiteSpace(c) }
  predicate IsVisibleNotDot(c: char) { IsVisible(c) && NotDot(c) }

  // ---------------------------------------------------------------------------
  // `Number(s)` on a cleaned string
  // ---------------------------------------------------------------------------

  predicate AllDigits(s: string) {
    forall i :: 0 <= i < |s| ==> IsDigit(s[i])
  }

  /** The value of a string of decimal digits (the empty string counts 0). */
  function DigitsValue(ds: string): nat
    requires AllDigits(ds)
  {
    if ds == [] then 0 else 10 * DigitsValue(ds[..|ds| - 1]) + (ds[|ds| - 1] as int - '0' as int)
  }

  function Pow10(n: nat): (r: nat)
    ensures r >= 1
  {
    if n == 0 then 1 else 10 * Pow10(n - 1)
  }

  /** An unsigned decimal literal: digits, optionally a `.` and more digits, with
      at least one digit in all (`"5"`, `"5."`, `".5"`, `"5.25"`). */
  function ParseUnsigned(s: string): (r: Option<real>)
    ensures r.Some? ==> r.value >= 0.0
  {
    match IndexOf(s, '.')
    case None =>
      if s != [] && AllDigits(s) then Some(DigitsValue(s) as real) else None
    case Some(k) =>
      var whole, frac := s[..k], s[k + 1..];
      if AllDigits(whole) && AllDigits(frac) && |whole| + |frac| > 0
      then Some(DigitsValue(whole) as real + DigitsValue(frac) as real / Pow10(|frac|) as real)
      else None
  }

  /** The exact value JavaScript's `Number` reads from a string made of digits,
      `.` and `-` only, or `None` where it gives `NaN`. The empty string reads as
      0; a leading `-` negates an unsigned literal; nothing else is accepted
      (`"-"`, `"."`, `"1.2.3"`, `"1-2"`). */
  function ParseDecimal(s: string): (r: Option<real>)
    ensures r.Some? && s != [] && s[0] == '-' ==> r.value <= 0.0
    ensures r.Some? && (s == [] || s[0] != '-') ==> r.value >= 0.0
  {
    if s == [] then Some(0.0)
    else if s[0] == '-' then
      match ParseUnsigned(s[1..])
      case None => None
      case Some(v) => Some(-v)
    else ParseUnsigned(s)
  }

  /** The least magnitude that rounds to an infinite double, 2^1024 - 2^970:
      halfway between the largest finite double and 2^1024. */
  const DoubleOverflow: int := 0xFFFF_FFFF_FFFF_FC00_0000_0000_0000_0000_0000_0000_0000_0000_0000_0000_0000_0000_0000_0000_0000_0000_0000_0000_0000_0000_0000_0000_0000_0000_0000_0000_0000_0000_0000_0000_0000_0000_0000_0000_0000_0000_0000_0000_0000_0000_0000_0000_0000_0000_0000_0000_0000_0000_0000_0000_0000_0000_0000_0000_0000_0000_0000_0000_0000_0000

  /** Strictly between the two overflow bounds. */
  predicate InDoubleRange(v: real) {
    -DoubleOverflow as real < v < DoubleOverflow as real
  }

  /** `Number(s)` for a cleaned string. Rounding to the nearest double is not
      modelled, but overflow to an infinity is. */
  function ToNumber(s: string): (r: JsNumber)
    ensures r.NaN? <==> ParseDecimal(s).None?
    ensures r.Finite? ==> InDoubleRange(r.r) && ParseDecimal(s) == Some(r.r)
    ensures r.Infinity? ==> ParseDecimal(s).Some? && !InDoubleRange(ParseDecimal(s).value)
  {
    match ParseDecimal(s)
    case None => NaN
    case Some(v) =>
      if v >= DoubleOverflow as real then Infinity(false)
      else if v <= -DoubleOverflow as real then Infinity(true)
      else Finite(v)
  }

  /** `safeNumber(x)`: missing values give 0, a number passes through when it is
      finite and gives 0 when it is not, and anything else is read from
      `String(x)` and always gives a finite number. */
  function SafeNumber(x: Value): (r: real)
    ensures x.Null? || x.Undefined? ==> r == 0.0
    ensures x.Num? && x.n.Finite? ==> r == x.n.r
    ensures x.Num? && !x.n.Finite? ==> r == 0.0
    ensures x.Str? || x.Bool? ==> InDoubleRange(r)
  {
    match x
    case Null => 0.0
    case Undefined => 0.0
    case Num(n) => if n.Finite? then n.r else 0.0
    case Bool(b) => ReadText(BoolText(b))
    case Str(s) => ReadText(s)
  }

  /** The string path of `safeNumber`: clean, read with `Number`, and replace
      a non-finite result by 0. */
  function ReadText(s: string): (r: real)
    ensures InDoubleRange(r)
  {
    var n := ToNumber(Clean(s));
    if n.Finite? then n.r else 0.0
  }

  /** A finite number passes through unchanged. */
  lemma FiniteKept(x: real)
    ensures SafeNumber(Num(Finite(x))) == x
  {
  }

  // ---------------------------------------------------------------------------
  // Which cleaned strings `Number` accepts
  // ---------------------------------------------------------------------------

  predicate HasDigit(s: string) {
    exists i :: 0 <= i < |s| && IsDigit(s[i])
  }

  predicate AtMostOneDot(s: string) {
    forall i, j :: 0 <= i < j < |s| && s[i] == '.' ==> s[j] != '.'
  }

  /** The decimal grammar `-? (digits | digits? . digits?)` with at least one
      digit, stated without reference to the parser: no minus sign after the
      first position, at most one point, and some digit. The empty string is
      accepted too (`Number("")` is 0). */
  predicate WellFormedNumeral(s: string) {
    s == [] ||
    var u := if s[0] == '-' then s[1..] else s;
    '-' !in u && AtMostOneDot(u) && HasDigit(u)
  }

  /** On strings of digits, `.` and `-` the parser accepts exactly the grammar. */
  lemma {:induction false} ParseDecimalAccepts(s: string)
    requires forall i :: 0 <= i < |s| ==> IsNumeralChar(s[i])
    ensures ParseDecimal(s).Some? <==> WellFormedNumeral(s)
  {
    if s != [] {
      var u := if s[0] == '-' then s[1..] else s;
      assert forall i :: 0 <= i < |u| ==> IsNumeralChar(u[i]);
      ParseUnsignedAccepts(u);
    }
  }

  lemma {:induction false} ParseUnsignedAccepts(u: string)
    requires forall i :: 0 <= i < |u| ==> IsNumeralChar(u[i])
    ensures ParseUnsigned(u).Some? <==> '-' !in u && AtMostOneDot(u) && HasDigit(u)
  {
    match IndexOf(u, '.')
    case None =>
      NoDotDigits(u);
      if u != [] && AllDigits(u) {
        assert IsDigit(u[0]);
      }
    case Some(k) =>
      SplitAtDot(u, k);
  }

  /** Without a point, a numeral string is all digits exactly when it has no minus. */
  lemma {:induction false} NoDotDigits(u: string)
    requires forall i :: 0 <= i < |u| ==> IsNumeralChar(u[i])
    requires '.' !in u
    ensures AllDigits(u) <==> '-' !in u
    ensures AtMostOneDot(u)
  {
    if !AllDigits(u) {
      var i :| 0 <= i < |u| && !IsDigit(u[i]);
      assert u[i] == '-';
    }
  }

  lemma {:induction false} SplitAtDot(u: string, k: nat)
    requires forall i :: 0 <= i < |u| ==> IsNumeralChar(u[i])
    requires k < |u| && u[k] == '.' && '.' !in u[..k]
    ensures var whole, frac := u[..k], u[k + 1..];
      (AllDigits(whole) && AllDigits(frac) && |whole| + |frac| > 0)
      <==> ('-' !in u && AtMostOneDot(u) && HasDigit(u))
  {
    var whole, frac := u[..k], u[k + 1..];
    assert u == whole + ['.'] + frac;
    assert forall i :: 0 <= i < |whole| ==> IsNumeralChar(whole[i]);
    NoDotDigits(whole);
    assert '-' !in u <==> '-' !in whole && '-' !in frac;
    assert AtMostOneDot(u) <==> '.' !in frac by {
      if '.' in frac {
        var j :| 0 <= j < |frac| && frac[j] == '.';
        assert u[k] == '.' && u[k + 1 + j] == '.';
      } else {
        forall i, j | 0 <= i < j < |u| && u[i] == '.' ensures u[j] != '.' {
          assert u[j] == frac[j - k - 1];
        }
      }
    }
    if '.' !in frac {
      assert forall i :: 0 <= i < |frac| ==> IsNumeralChar(frac[i]);
      NoDotDigits(frac);
    } else {
      var j :| 0 <= j < |frac| && frac[j] == '.';
      assert !AllDigits(frac);
    }
    if HasDigit(u) {
      var i :| 0 <= i < |u| && IsDigit(u[i]);
      assert i != k;
      if i < k { assert |whole| > 0; } else { assert |frac| > 0; }
    }
    if |whole| > 0 && AllDigits(whole) {
      assert IsDigit(u[0]);
    } else if |frac| > 0 && AllDigits(frac) {
      assert IsDigit(u[k + 1]);
    }
  }

  /** A string that cleans to something outside the grammar is worth 0:
      `"abc"` aside (it cleans to the empty string), this is how `"-"`, `"."`,
      `"1.2.3"` and `"1-2"` end up as 0. */
  lemma {:induction false} SafeNumberMalformed(s: string)
    requires !WellFormedNumeral(Clean(s))
    ensures SafeNumber(Str(s)) == 0.0
  {
    ParseDecimalAccepts(Clean(s));
  }

  // ---------------------------------------------------------------------------
  // Round trips through decimal notation
  // ---------------------------------------------------------------------------

  /** The shortest decimal notation of a natural number. */
  function DecimalDigits(n: nat): (r: string)
    ensures r != [] && AllDigits(r)
    decreases n
  {
    var d := ['0' + (n % 10) as char];
    if n < 10 then d else DecimalDigits(n / 10) + d
  }

  lemma {:induction false} DecimalDigitsValue(n: nat)
    ensures DigitsValue(DecimalDigits(n)) == n
    decreases n
  {
    var r := DecimalDigits(n);
    if n >= 10 {
      DecimalDigitsValue(n / 10);
      assert r[..|r| - 1] == DecimalDigits(n / 10);
    }
  }

  /** The notation of an integer, with a leading `-` when it is negative. */
  function IntToDecimal(n: int): (r: string)
    ensures r != []
  {
    if n < 0 then "-" + DecimalDigits(-n) else DecimalDigits(n)
  }

  /** A digit string is its own cleaning and reads as its value. */
  lemma {:induction false} DigitsRead(ds: string)
    requires ds != [] && AllDigits(ds)
    ensures Clean(ds) == ds
    ensures ParseDecimal(ds) == Some(DigitsValue(ds) as real)
  {
    CleanCharacterization(ds);
    FilterKeepsAll(ds, IsNumeralChar);
    assert IsDigit(ds[0]);
    UnsignedDigits(ds);
  }

  /** The notation of an integer cleans to itself and parses to the integer. */
  lemma {:induction false} DecimalRead(n: int)
    ensures Clean(IntToDecimal(n)) == IntToDecimal(n)
    ensures ParseDecimal(IntToDecimal(n)) == Some(n as real)
  {
    if n < 0 {
      NegativeClean(DecimalDigits(-n));
      NegativeDecimalRead(n);
    } else {
      var ds := DecimalDigits(n);
      assert IntToDecimal(n) == ds;
      DigitsRead(ds);
      DecimalDigitsValue(n);
    }
  }

  lemma {:induction false} NegativeDecimalRead(n: int)
    requires n < 0
    ensures ParseDecimal("-" + DecimalDigits(-n)) == Some(n as real)
  {
    var ds := DecimalDigits(-n);
    DecimalDigitsValue(-n);
    Negated(DigitsValue(ds), n);
    NegativeParse(ds);
  }

  lemma Negated(v: nat, n: int)
    requires v == -n
    ensures -(v as real) == n as real
  {
  }

  lemma {:induction false} NegativeClean(ds: string)
    requires AllDigits(ds)
    ensures Clean("-" + ds) == "-" + ds
  {
    var s := "-" + ds;
    assert forall i :: 0 <= i < |s| ==> IsNumeralChar(s[i]);
    assert ',' !in s;
    CleanCharacterization(s);
    FilterKeepsAll(s, IsNumeralChar);
  }

  lemma {:induction false} NegativeParse(ds: string)
    requires ds != [] && AllDigits(ds)
    ensures ParseDecimal("-" + ds) == Some(-(DigitsValue(ds) as real))
  {
    var s := "-" + ds;
    assert s[1..] == ds;
    UnsignedDigits(ds);
  }

  lemma {:induction false} UnsignedDigits(ds: string)
    requires ds != [] && AllDigits(ds)
    ensures ParseUnsigned(ds) == Some(DigitsValue(ds) as real)
  {
  }

  /** An integer written in decimal reads back as itself while it is below the
      overflow bound, and as 0 (an infinity) from there on. */
  lemma {:induction false} IntegerRoundTrip(n: int)
    ensures -DoubleOverflow < n < DoubleOverflow ==> SafeNumber(Str(IntToDecimal(n))) == n as real
    ensures n >= DoubleOverflow || n <= -DoubleOverflow ==> SafeNumber(Str(IntToDecimal(n))) == 0.0
  {
    DecimalRead(n);
    var s := IntToDecimal(n);
    if -DoubleOverflow < n < DoubleOverflow {
      ReadsAs(s, n as real);
    } else {
      OverflowRead(s, n as real);
    }
  }

  /** A string whose cleaning parses to a value beyond the overflow bound is
      an infinity for `Number`, so it is worth 0. */
  lemma {:induction false} OverflowRead(s: string, v: real)
    requires ParseDecimal(Clean(s)) == Some(v)
    requires v >= DoubleOverflow as real || v <= -DoubleOverflow as real
    ensures SafeNumber(Str(s)) == 0.0
  {
    assert ToNumber(Clean(s)).Infinity?;
  }

  /** `ds` with `sep` before every third digit from the right: `"1234567"`
      becomes `"1,234,567"` (or `"1.234.567"`). */
  function GroupThousands(ds: string, sep: char): (r: string)
    ensures |r| >= |ds|
    ensures forall i :: 0 <= i < |r| ==> r[i] == sep || r[i] in ds
    decreases |ds|
  {
    if |ds| <= 3 then ds else GroupThousands(ds[..|ds| - 3], sep) + [sep] + ds[|ds| - 3..]
  }

  /** Removing the separators from a grouped string gives the digits back. */
  lemma {:induction false} UngroupThousands(ds: string, sep: char, keep: char -> bool)
    requires AllDigits(ds) && !keep(sep)
    requires forall c :: IsDigit(c) ==> keep(c)
    ensures Filter(GroupThousands(ds, sep), keep) == ds
    decreases |ds|
  {
    if |ds| <= 3 {
      FilterKeepsAll(ds, keep);
    } else {
      var a, b := ds[..|ds| - 3], ds[|ds| - 3..];
      var ga := GroupThousands(a, sep);
      assert Filter(ga, keep) == a by { UngroupThousands(a, sep, keep); }
      assert Filter(b, keep) == b by { FilterKeepsAll(b, keep); }
      assert GroupThousands(ds, sep) == ga + [sep] + b;
      FilterDrops(ga, sep, b, keep);
      assert ds == a + b;
    }
  }

  /** Grouping adds no character but the separator. */
  lemma {:induction false} GroupedExcludes(ds: string, sep: char, c: char)
    requires AllDigits(ds) && !IsDigit(c) && c != sep
    ensures c !in GroupThousands(ds, sep)
  {
    DigitsExclude(ds, c);
  }

  /** A grouped number holds a separator exactly when it has more than three digits. */
  lemma {:induction false} GroupedSeparator(ds: string, sep: char)
    requires AllDigits(ds) && !IsDigit(sep)
    ensures sep in GroupThousands(ds, sep) <==> |ds| > 3
  {
    var g := GroupThousands(ds, sep);
    if |ds| <= 3 {
      DigitsExclude(ds, sep);
    } else {
      var ga := GroupThousands(ds[..|ds| - 3], sep);
      assert g[|ga|] == sep;
    }
  }

  /** The value of a digit string with a point inside. */
  lemma {:induction false} PointRead(a: string, b: string)
    requires AllDigits(a) && AllDigits(b) && |a| + |b| > 0
    ensures ParseDecimal(a + "." + b) == Some(DigitsValue(a) as real + DigitsValue(b) as real / Pow10(|b|) as real)
  {
    var s := a + "." + b;
    assert s[|a|] == '.';
    DigitsExclude(a, '.');
    assert IndexOf(s, '.') == Some(|a|);
    assert s[..|a|] == a && s[|a| + 1..] == b;
    if a != [] {
      assert IsDigit(a[0]) && s[0] == a[0];
    } else {
      assert s[0] == '.';
    }
  }

  lemma {:induction false} DigitsExclude(s: string, c: char)
    requires AllDigits(s) && !IsDigit(c)
    ensures c !in s
  {
  }

  /** With at most one kind of separator the string is only filtered. */
  lemma {:induction false} CleanOneSeparatorKind(s: string)
    requires ',' !in s || '.' !in s
    ensures Clean(s) == Filter(s, IsNumeralChar)
  {
    CleanCharacterization(s);
  }

  /** Thousands grouped with `,` and a leading `$`: the US notation of a whole
      amount reads back as the amount. */
  lemma {:induction false} UsGroupedRoundTrip(n: nat)
    requires n < DoubleOverflow
    ensures SafeNumber(Str("$" + GroupThousands(DecimalDigits(n), ','))) == n as real
  {
    var ds := DecimalDigits(n);
    DecimalDigitsValue(n);
    DigitsRead(ds);
    UsGroupedClean(ds);
    ReadsAs("$" + GroupThousands(ds, ','), n as real);
  }

  lemma {:induction false} UsGroupedClean(ds: string)
    requires AllDigits(ds)
    ensures Clean("$" + GroupThousands(ds, ',')) == ds
  {
    var g := GroupThousands(ds, ',');
    GroupedExcludes(ds, ',', '.');
    UngroupThousands(ds, ',', IsNumeralChar);
    DollarPrefix(g);
  }

  /** A leading `$` is dropped. */
  lemma {:induction false} DollarPrefix(g: string)
    requires '.' !in g
    ensures Clean("$" + g) == Filter(g, IsNumeralChar)
  {
    var s := "$" + g;
    assert s[1..] == g;
    assert '.' !in s;
    CleanOneSeparatorKind(s);
    FilterConcat("$", g, IsNumeralChar);
    assert !IsNumeralChar("$"[0]);
    FilterKeepsNone("$", IsNumeralChar);
  }

  /** Thousands grouped with `.` and decimals after `,`, the Latin-American
      notation: it reads back as the amount once there is a thousands point,
      that is from 1000 on. */
  lemma {:induction false} LatamGroupedRoundTrip(n: nat, frac: string)
    requires 1000 <= n && n + 1 < DoubleOverflow && AllDigits(frac)
    ensures SafeNumber(Str(GroupThousands(DecimalDigits(n), '.') + "," + frac))
            == n as real + DigitsValue(frac) as real / Pow10(|frac|) as real
  {
    if |DecimalDigits(n)| <= 3 { SmallDecimal(n); }
    LatamGroupedParse(DecimalDigits(n), frac);
    DecimalDigitsValue(n);
    FractionBelowOne(frac);
    ProperFraction(DigitsValue(frac) as real, Pow10(|frac|) as real);
    ReadsAs(GroupThousands(DecimalDigits(n), '.') + "," + frac,
            n as real + DigitsValue(frac) as real / Pow10(|frac|) as real);
  }

  /** A string whose cleaning parses to a value within range reads as that value. */
  lemma {:induction false} ReadsAs(s: string, v: real)
    requires ParseDecimal(Clean(s)) == Some(v)
    requires -DoubleOverflow as real < v < DoubleOverflow as real
    ensures SafeNumber(Str(s)) == v
  {
    NumberInRange(Clean(s), v);
    FiniteRead(s, v);
  }

  lemma NumberInRange(t: string, v: real)
    requires ParseDecimal(t) == Some(v)
    requires -DoubleOverflow as real < v < DoubleOverflow as real
    ensures ToNumber(t) == Finite(v)
  {
  }

  lemma FiniteRead(s: string, v: real)
    requires ToNumber(Clean(s)) == Finite(v)
    ensures SafeNumber(Str(s)) == v
  {
  }

  lemma {:induction false} LatamGroupedParse(ds: string, frac: string)
    requires AllDigits(ds) && AllDigits(frac) && |ds| > 3
    ensures ParseDecimal(Clean(GroupThousands(ds, '.') + "," + frac))
            == Some(DigitsValue(ds) as real + DigitsValue(frac) as real / Pow10(|frac|) as real)
  {
    LatamGroupedClean(ds, frac);
    PointRead(ds, frac);
  }

  lemma {:induction false} LatamGroupedClean(ds: string, frac: string)
    requires AllDigits(ds) && AllDigits(frac) && |ds| > 3
    ensures Clean(GroupThousands(ds, '.') + "," + frac) == ds + "." + frac
  {
    var g := GroupThousands(ds, '.');
    var s := g + "," + frac;
    UngroupThousands(ds, '.', IsSignedDigit);
    GroupedSeparator(ds, '.');
    GroupedExcludes(ds, '.', ',');
    IndexOfAfter(g, ',', frac);
    var i :| 0 <= i < |g| && g[i] == '.';
    assert s[i] == '.';
    CleanBothSeparators(s);
    FilterKeepsAll(frac, IsSignedDigit);
  }

  lemma ProperFraction(d: real, p: real)
    requires 0.0 <= d < p
    ensures 0.0 <= d / p < 1.0
  {
    assert d / p * p == d;
  }

  /** A number below 1000 has at most three digits. */
  lemma {:induction false} SmallDecimal(n: nat)
    requires |DecimalDigits(n)| <= 3
    ensures n < 1000
  {
    if n >= 10 {
      SmallDecimal(n / 10);
    }
  }

  lemma {:induction false} FractionBelowOne(ds: string)
    requires AllDigits(ds)
    ensures DigitsValue(ds) < Pow10(|ds|)
  {
    if ds != [] {
      FractionBelowOne(ds[..|ds| - 1]);
    }
  }

  /** With a `,` before a `.`, the comma is read as the decimal point and the
      point is dropped: `"1,234.56"` reads as 1.23456. */
  lemma {:induction false} CommaBeforePoint(a: string, b: string, c: string)
    requires AllDigits(a) && AllDigits(b) && AllDigits(c)
    ensures Clean(a + "," + (b + "." + c)) == a + "." + (b + c)
  {
    var rest := b + "." + c;
    assert Clean(a + "," + rest) == Filter(a, IsSignedDigit) + "." + Filter(rest, IsSignedDigit) by {
      assert rest[|b|] == '.';
      DigitsExclude(a, ',');
      CleanAtFirstComma(a, rest);
    }
    assert Filter(a, IsSignedDigit) == a by { FilterKeepsAll(a, IsSignedDigit); }
    assert Filter(rest, IsSignedDigit) == b + c by { DropPoint(b, c); }
  }

  /** Cleaning around the first comma when a point occurs somewhere. */
  lemma {:induction false} CleanAtFirstComma(a: string, rest: string)
    requires ',' !in a && ('.' in a || '.' in rest)
    ensures Clean(a + "," + rest) == Filter(a, IsSignedDigit) + "." + Filter(rest, IsSignedDigit)
  {
    var s := a + "," + rest;
    assert s[|a|] == ',';
    assert IndexOf(s, ',') == Some(|a|);
    assert s[..|a|] == a && s[|a| + 1..] == rest;
    assert '.' in s;
    CleanBothSeparators(s);
  }

  lemma {:induction false} DropPoint(b: string, c: string)
    requires AllDigits(b) && AllDigits(c)
    ensures Filter(b + "." + c, IsSignedDigit) == b + c
  {
    assert Filter(".", IsSignedDigit) == [];
    calc {
      Filter(b + "." + c, IsSignedDigit);
      { FilterConcat(b + ".", c, IsSignedDigit); }
      Filter(b + ".", IsSignedDigit) + Filter(c, IsSignedDigit);
      { FilterConcat(b, ".", IsSignedDigit); }
      Filter(b, IsSignedDigit) + Filter(c, IsSignedDigit);
      { FilterKeepsAll(b, IsSignedDigit); FilterKeepsAll(c, IsSignedDigit); }
      b + c;
    }
  }

  /** With commas but no point, every comma is a thousands separator:
      `"12,50"` reads as 1250. */
  lemma {:induction false} CommaWithoutPoint(a: string, b: string)
    requires AllDigits(a) && AllDigits(b)
    ensures Clean(a + "," + b) == a + b
  {
    var s := a + "," + b;
    DigitsExclude(a, '.');
    DigitsExclude(b, '.');
    assert '.' !in s;
    CleanOneSeparatorKind(s);
    DropComma(a, b);
  }

  lemma {:induction false} DropComma(a: string, b: string)
    requires AllDigits(a) && AllDigits(b)
    ensures Filter(a + "," + b, IsNumeralChar) == a + b
  {
    assert !IsNumeralChar(',');
    FilterDrops(a, ',', b, IsNumeralChar);
    FilterKeepsAll(a, IsNumeralChar);
    FilterKeepsAll(b, IsNumeralChar);
  }
}

=== FILE: amount_examples.dfy ===
/** Worked inputs of `safeNumber`, derived from the general lemmas of `Amount`.
    Each step on a literal is a lemma of its own, which keeps the solver's
    work per step small. */
module AmountExamples {
  import opened Js
  import opened Seqs
  import opened Strings
  import opened Amount

  /** A lone comma groups thousands. */
  lemma {:induction false} CommaThousandsExample()
    ensures SafeNumber(Str("1,234")) == 1234.0
  {
    CommaFilter();
    CleanOneSeparatorKind("1,234");
    Value1234();
    DigitsRead("1234");
    ReadsAs("1,234", 1234.0);
  }

  lemma Value1234()
    ensures AllDigits("1234") && DigitsValue("1234") == 1234
  {
    assert "1234"[..3] == "123" && "123"[..2] == "12" && "12"[..1] == "1";
  }

  lemma CommaFilter()
    ensures '.' !in "1,234"
    ensures Filter("1,234", IsNumeralChar) == "1234"
  {
    assert "1,234"[1..] == ",234" && ",234"[1..] == "234" && "234"[1..] == "34" && "34"[1..] == "4";
  }

  /** Text without digits cleans to the empty string, which reads as 0. */
  lemma {:induction false} LettersExample()
    ensures SafeNumber(Str("abc")) == 0.0
  {
    CleanOneSeparatorKind("abc");
    LettersFilter();
    ReadsAs("abc", 0.0);
  }

  lemma LettersFilter()
    ensures Filter("abc", IsNumeralChar) == ""
  {
    assert "abc"[1..] == "bc" && "bc"[1..] == "c";
  }

  /** Text with no digit, point or minus sign cleans to the empty string,
      which `Number` reads as 0. */
  lemma {:induction false} NoNumeralReadsZero(s: string)
    requires forall i :: 0 <= i < |s| ==> !IsNumeralChar(s[i])
    ensures SafeNumber(Str(s)) == 0.0
  {
    assert '.' !in s;
    CleanOneSeparatorKind(s);
    FilterKeepsNone(s, IsNumeralChar);
    ReadsAs(s, 0.0);
  }

  /** A boolean amount is read from `String(b)`, `"true"` or `"false"`: no
      digit survives the cleaning, so it is worth 0. */
  lemma {:induction false} BooleanExample(b: bool)
    ensures SafeNumber(Bool(b)) == SafeNumber(Str(BoolText(b)))
    ensures SafeNumber(Bool(b)) == 0.0
  {
    BooleanLetters(b);
    NoNumeralReadsZero(BoolText(b));
  }

  lemma BooleanLetters(b: bool)
    ensures forall i :: 0 <= i < |BoolText(b)| ==> !IsNumeralChar(BoolText(b)[i])
  {
  }

  /** Two points, or a bare minus sign, are outside the grammar. */
  lemma {:induction false} MalformedExamples()
    ensures SafeNumber(Str("1.2.3")) == 0.0
    ensures SafeNumber(Str("-")) == 0.0
  {
    CleanOneSeparatorKind("1.2.3");
    TwoPoints();
    SafeNumberMalformed("1.2.3");
    CleanOneSeparatorKind("-");
    BareMinus();
    SafeNumberMalformed("-");
  }

  lemma TwoPoints()
    ensures Filter("1.2.3", IsNumeralChar) == "1.2.3"
    ensures !WellFormedNumeral("1.2.3")
  {
    assert "1.2.3"[1..] == ".2.3" && ".2.3"[1..] == "2.3" && "2.3"[1..] == ".3" && ".3"[1..] == "3";
    assert "1.2.3"[1] == '.' && "1.2.3"[3] == '.';
  }

  lemma BareMinus()
    ensures Filter("-", IsNumeralChar) == "-"
    ensures !WellFormedNumeral("-")
  {
    assert "-"[1..] == "";
  }
}

=== FILE: classifier.dfy ===
/** `isScannedLike(text, fileSizeBytes)` (index.js:152-167): whether the text
    layer of a PDF is too thin to read a statement from, so that the pages have
    to be sent as images. */
module Classifier {
  import opened Js
  import opened Seqs
  import opened Strings
  import Amount

  /** The regex class `[A-Za-zÁÉÍÓÚÜÑáéíóúüñ]`: ASCII letters and the accented
      letters of Spanish in both cases. */
  predicate IsLetter(c: char) {
    || 'A' <= c <= 'Z' || 'a' <= c <= 'z'
    || c == '\U{00C1}' || c == '\U{00C9}' || c == '\U{00CD}' || c == '\U{00D3}' || c == '\U{00DA}'
    || c == '\U{00DC}' || c == '\U{00D1}'
    || c == '\U{00E1}' || c == '\U{00E9}' || c == '\U{00ED}' || c == '\U{00F3}' || c == '\U{00FA}'
    || c == '\U{00FC}' || c == '\U{00F1}'
  }

  /** The number of letters plus the number of digits (`[0-9]`): the lengths
      of the two `match(/.../g)` results. */
  function Printable(t: string): nat {
    |Filter(t, IsLetter)| + |Filter(t, Amount.IsDigit)|
  }

  /** A letter is never a digit, so the printable count is at most the length. */
  lemma PrintableAtMostLength(t: string)
    ensures Printable(t) <= |t|
  {
    FilterDisjointCount(t, IsLetter, Amount.IsDigit);
  }

  function Max(a: int, b: int): int {
    if a < b then b else a
  }

  /** `(letters + digits) / Math.max(1, len)`. */
  function PrintableRatio(t: string): (r: real)
    ensures 0.0 <= r <= 1.0
    ensures r < 0.25 <==> 4 * Printable(t) < Max(1, |t|)
  {
    PrintableAtMostLength(t);
    RatioBounds(Printable(t), Max(1, |t|));
    QuarterTest(Printable(t), Max(1, |t|));
    Printable(t) as real / Max(1, |t|) as real
  }

  /** Comparing a ratio with a quarter without dividing. */
  lemma QuarterTest(p: nat, d: int)
    requires d >= 1
    ensures p as real / d as real < 0.25 <==> 4 * p < d
  {
    var x, dr := p as real / d as real, d as real;
    assert x * dr == p as real;
    if x < 0.25 {
      ScaleStrict(x, 0.25, dr);
    } else {
      ScaleWeak(0.25, x, dr);
    }
  }

  /** A count over a larger count lies between 0 and 1. */
  lemma RatioBounds(p: nat, d: int)
    requires 1 <= d && p <= d
    ensures 0.0 <= p as real / d as real <= 1.0
  {
    var x, dr := p as real / d as real, d as real;
    assert x * dr == p as real;
    if x < 0.0 {
      ScaleStrict(x, 0.0, dr);
    } else if x > 1.0 {
      ScaleStrict(1.0, x, dr);
    }
  }

  lemma ScaleStrict(a: real, b: real, c: real)
    requires a < b && c > 0.0
    ensures a * c < b * c
  {
  }

  lemma ScaleWeak(a: real, b: real, c: real)
    requires a <= b && c > 0.0
    ensures a * c <= b * c
  {
  }

  /** `1.5 * 1024 * 1024` bytes: above this a PDF counts as big. */
  const BigPdfBytes: int := 1572864
  /** Texts shorter than this are too short to be a statement. */
  const ShortText: int := 800
  /** Texts shorter than this are too short for a big PDF. */
  const ShortTextForBigPdf: int := 3000
  /** Fewer date matches than this and the text is not a statement. */
  const FewDates: int := 3

  /** The regex word characters `[A-Za-z0-9_]` that `\b` looks at. */
  predicate IsWordChar(c: char) {
    'A' <= c <= 'Z' || 'a' <= c <= 'z' || '0' <= c <= '9' || c == '_'
  }

  /** `\b` at position `i`: a word character on exactly one side (outside the
      string counts as a non-word character). */
  predicate BoundaryAt(s: string, i: int)
    requires 0 <= i <= |s|
  {
    (i > 0 && IsWordChar(s[i - 1])) != (i < |s| && IsWordChar(s[i]))
  }

  predicate DateSep(c: char) { c == '-' || c == '/' }

  /** `20\d{2}[-\/]\d{2}[-\/]\d{2}` at position `i`. */
  predicate YearFirstAt(s: string, i: int)
    requires 0 <= i && i + 10 <= |s|
  {
    s[i] == '2' && s[i + 1] == '0' && Amount.IsDigit(s[i + 2]) && Amount.IsDigit(s[i + 3])
    && DateSep(s[i + 4]) && Amount.IsDigit(s[i + 5]) && Amount.IsDigit(s[i + 6])
    && DateSep(s[i + 7]) && Amount.IsDigit(s[i + 8]) && Amount.IsDigit(s[i + 9])
  }

  /** `\d{2}[-\/]\d{2}[-\/]20\d{2}` at position `i`. */
  predicate YearLastAt(s: string, i: int)
    requires 0 <= i && i + 10 <= |s|
  {
    Amount.IsDigit(s[i]) && Amount.IsDigit(s[i + 1]) && DateSep(s[i + 2])
    && Amount.IsDigit(s[i + 3]) && Amount.IsDigit(s[i + 4]) && DateSep(s[i + 5])
    && s[i + 6] == '2' && s[i + 7] == '0' && Amount.IsDigit(s[i + 8]) && Amount.IsDigit(s[i + 9])
  }

  /** The date regex matches at `i`. Both alternatives are ten characters
      long, so `\b(A|B)\b` matches exactly when one of them does and both ends
      are word boundaries. */
  predicate DateAt(s: string, i: int) {
    0 <= i && i + 10 <= |s| && BoundaryAt(s, i) && BoundaryAt(s, i + 10)
    && (YearFirstAt(s, i) || YearLastAt(s, i))
  }

  /** The number of matches a global `match` finds from position `i` on: the
      search resumes after the end of every match, so matches do not overlap. */
  function DateCountFrom(s: string, i: nat): (r: nat)
    requires i <= |s|
    ensures i + 10 * r <= |s|
    decreases |s| - i
  {
    if i + 10 > |s| then 0
    else if DateAt(s, i) then 1 + DateCountFrom(s, i + 10)
    else DateCountFrom(s, i + 1)
  }

  function DateCount(s: string): nat {
    DateCountFrom(s, 0)
  }

  /** Some match is counted from `i` on exactly when the pattern matches
      somewhere at or after `i`. */
  lemma {:induction false} DateCountFinds(s: string, i: nat)
    requires i <= |s|
    ensures DateCountFrom(s, i) > 0 <==> exists j :: i <= j && DateAt(s, j)
    decreases |s| - i
  {
    if i + 10 <= |s| && !DateAt(s, i) {
      DateCountFinds(s, i + 1);
      if exists j :: i <= j && DateAt(s, j) {
        var j :| i <= j && DateAt(s, j);
        assert i + 1 <= j;
      }
    }
  }

  /** The global match as a scan with `lastIndex`. */
  method DateCountLoop(s: string) returns (n: nat)
    ensures n == DateCount(s)
  {
    n := 0;
    var i: nat := 0;
    while i + 10 <= |s|
      invariant i <= |s|
      invariant n + DateCountFrom(s, i) == DateCount(s)
      decreases |s| - i
    {
      if DateAt(s, i) {
        n := n + 1;
        i := i + 10;
      } else {
        i := i + 1;
      }
    }
  }

  /** `(text || "").trim()`: `None` stands for a missing text. */
  function Trimmed(text: Option<string>): string {
    Trim(if text.Some? then text.value else "")
  }

  /** `isScannedLike(text, fileSizeBytes)`: any one of the five signs of a
      scanned document makes the result true. */
  function IsScannedLike(text: Option<string>, fileSize: int): (r: bool)
    ensures Trimmed(text) == [] ==> r
    ensures |Trimmed(text)| < ShortText ==> r
    ensures fileSize > BigPdfBytes && |Trimmed(text)| < ShortTextForBigPdf ==> r
    ensures 4 * Printable(Trimmed(text)) < Max(1, |Trimmed(text)|) ==> r
    ensures DateCount(Trimmed(text)) < FewDates ==> r
    ensures !r <==> |Trimmed(text)| >= ShortText && 4 * Printable(Trimmed(text)) >= |Trimmed(text)|
                    && DateCount(Trimmed(text)) >= FewDates
                    && (fileSize <= BigPdfBytes || |Trimmed(text)| >= ShortTextForBigPdf)
  {
    var t := Trimmed(text);
    if t == [] then true
    else
      var len := |t|;
      var bigPdf := fileSize > BigPdfBytes;
      len < ShortText || (bigPdf && len < ShortTextForBigPdf)
      || PrintableRatio(t) < 0.25 || DateCount(t) < FewDates
  }

  /** A missing text, or one of white space only, is taken for a scan. */
  lemma {:induction false} ScannedWhenBlank(text: Option<string>, fileSize: int)
    requires text.Some? ==> AllWhiteSpace(text.value)
    ensures IsScannedLike(text, fileSize)
  {
    TrimEmpty(if text.Some? then text.value else "");
  }

  /** A text read as not scanned holds a date the pattern matches. */
  lemma {:induction false} ReadableHasDates(text: Option<string>, fileSize: int)
    requires !IsScannedLike(text, fileSize)
    ensures exists j :: DateAt(Trimmed(text), j)
  {
    var t := Trimmed(text);
    DateCountFinds(t, 0);
  }
}

=== FILE: dedupe.dfy ===
/** Keeping the first element of every key: the set-based filter of
    `dedupeMovimientos` (server.cjs:94-110, the same code at index.js:133-149),
    stated for any element type and key. */
module Dedupe {
  import opened Seqs

  /** The keys that occur in `s`. */
  function Keys<T, K(==)>(s: seq<T>, key: T -> K): set<K> {
    set i | 0 <= i < |s| :: key(s[i])
  }

  /** The elements whose key has not occurred earlier, in their original order.
      Defined by the last element, as the loop sees it. */
  function KeepFirst<T, K(==)>(s: seq<T>, key: T -> K): seq<T>
    decreases |s|
  {
    if s == [] then []
    else
      var p := s[..|s| - 1];
      if key(s[|s| - 1]) in Keys(p, key) then KeepFirst(p, key)
      else KeepFirst(p, key) + [s[|s| - 1]]
  }

  predicate DistinctKeys<T, K(==)>(s: seq<T>, key: T -> K) {
    forall i, j :: 0 <= i < j < |s| ==> key(s[i]) != key(s[j])
  }

  lemma {:induction false} KeysSnoc<T, K>(s: seq<T>, x: T, key: T -> K)
    ensures Keys(s + [x], key) == Keys(s, key) + {key(x)}
  {
    var t := s + [x];
    forall k | k in Keys(t, key) ensures k in Keys(s, key) + {key(x)} {
      var i :| 0 <= i < |t| && key(t[i]) == k;
      if i < |s| { assert t[i] == s[i]; }
    }
    forall k | k in Keys(s, key) + {key(x)} ensures k in Keys(t, key) {
      if k in Keys(s, key) {
        var i :| 0 <= i < |s| && key(s[i]) == k;
        assert t[i] == s[i];
      } else {
        assert t[|s|] == x;
      }
    }
  }

  /** What is kept has exactly the keys of the input, each once. */
  lemma {:induction false} KeepFirstKeys<T, K>(s: seq<T>, key: T -> K)
    ensures Keys(KeepFirst(s, key), key) == Keys(s, key)
    ensures DistinctKeys(KeepFirst(s, key), key)
    decreases |s|
  {
    if s != [] {
      var p, x := s[..|s| - 1], s[|s| - 1];
      var r := KeepFirst(p, key);
      KeepFirstKeys(p, key);
      assert s == p + [x];
      KeysSnoc(p, x, key);
      if key(x) !in Keys(p, key) {
        KeysSnoc(r, x, key);
        var t := r + [x];
        forall i, j | 0 <= i < j < |t| ensures key(t[i]) != key(t[j]) {
          if j < |r| {
            assert t[i] == r[i] && t[j] == r[j];
          } else {
            assert t[i] == r[i];
            assert key(r[i]) in Keys(r, key);
          }
        }
      }
    }
  }

  /** What is kept is a subsequence of the input. */
  lemma {:induction false} KeepFirstSubsequence<T, K>(s: seq<T>, key: T -> K)
    ensures IsSubsequence(KeepFirst(s, key), s)
    decreases |s|
  {
    if s != [] {
      var p, x := s[..|s| - 1], s[|s| - 1];
      KeepFirstSubsequence(p, key);
      assert s == p + [x];
      if key(x) in Keys(p, key) {
        SubsequenceSnocRight(KeepFirst(p, key), p, x);
      } else {
        SubsequenceSnocBoth(KeepFirst(p, key), p, x);
      }
    }
  }

  /** `x` occurs in `s` at a position where its key has not occurred before. */
  predicate FirstOfItsKey<T(==), K(==)>(s: seq<T>, key: T -> K, x: T) {
    exists j :: 0 <= j < |s| && s[j] == x && key(x) !in Keys(s[..j], key)
  }

  /** Every element kept is the first element of the input with its key. */
  lemma {:induction false} KeepFirstIsFirst<T, K>(s: seq<T>, key: T -> K)
    ensures forall i :: 0 <= i < |KeepFirst(s, key)| ==> FirstOfItsKey(s, key, KeepFirst(s, key)[i])
    decreases |s|
  {
    if s != [] {
      var p, x := s[..|s| - 1], s[|s| - 1];
      var r := KeepFirst(p, key);
      KeepFirstIsFirst(p, key);
      var t := KeepFirst(s, key);
      forall i | 0 <= i < |t| ensures FirstOfItsKey(s, key, t[i]) {
        if i < |r| {
          assert t[i] == r[i];
          assert FirstOfItsKey(p, key, r[i]);
          var j :| 0 <= j < |p| && p[j] == r[i] && key(r[i]) !in Keys(p[..j], key);
          assert s[j] == p[j] && s[..j] == p[..j];
        } else {
          assert key(x) !in Keys(p, key);
          assert t[i] == x && s[|s| - 1] == x && s[..|s| - 1] == p;
        }
      }
    }
  }

  /** An input whose keys are already distinct is kept whole. */
  lemma {:induction false} KeepFirstDistinct<T, K>(s: seq<T>, key: T -> K)
    requires DistinctKeys(s, key)
    ensures KeepFirst(s, key) == s
    decreases |s|
  {
    if s != [] {
      var p, x := s[..|s| - 1], s[|s| - 1];
      assert DistinctKeys(p, key) by {
        forall i, j | 0 <= i < j < |p| ensures key(p[i]) != key(p[j]) {
          assert p[i] == s[i] && p[j] == s[j];
        }
      }
      KeepFirstDistinct(p, key);
      forall i | 0 <= i < |p| ensures key(p[i]) != key(x) {
        assert p[i] == s[i];
      }
      assert s == p + [x];
    }
  }

  /** Of two elements, the second is dropped exactly when it repeats the first's key. */
  lemma {:induction false} KeepFirstPair<T, K>(x: T, y: T, key: T -> K)
    ensures key(x) == key(y) ==> KeepFirst([x, y], key) == [x]
    ensures key(x) != key(y) ==> KeepFirst([x, y], key) == [x, y]
  {
    var e: seq<T> := [];
    assert Keys(e, key) == {};
    assert [x][..0] == e;
    assert KeepFirst([x], key) == [x];
    assert Keys([x], key) == {key(x)} by { KeysSnoc(e, x, key); assert e + [x] == [x]; }
    assert [x, y][..1] == [x];
  }

  /** Removing duplicates twice removes nothing more. */
  lemma {:induction false} KeepFirstIdempotent<T, K>(s: seq<T>, key: T -> K)
    ensures KeepFirst(KeepFirst(s, key), key) == KeepFirst(s, key)
  {
    KeepFirstKeys(s, key);
    KeepFirstDistinct(KeepFirst(s, key), key);
  }

  lemma {:induction false} SubsequenceSnocRight<T>(a: seq<T>, b: seq<T>, x: T)
    requires IsSubsequence(a, b)
    ensures IsSubsequence(a, b + [x])
    decreases |b|
  {
    if a != [] {
      assert (b + [x])[1..] == b[1..] + [x];
      if a[0] == b[0] {
        SubsequenceSnocRight(a[1..], b[1..], x);
      } else {
        SubsequenceSnocRight(a, b[1..], x);
      }
    }
  }

  lemma {:induction false} SubsequenceSnocBoth<T>(a: seq<T>, b: seq<T>, x: T)
    requires IsSubsequence(a, b)
    ensures IsSubsequence(a + [x], b + [x])
    decreases |b|
  {
    if b == [] {
      assert a == [];
      assert a + [x] == [x] == b + [x];
      assert IsSubsequence([x][1..], [x][1..]);
    } else {
      assert (b + [x])[1..] == b[1..] + [x];
      if a == [] {
        if b[0] != x {
          SubsequenceSnocBoth(a, b[1..], x);
          assert a + [x] == [x];
        } else {
          assert (a + [x])[1..] == [];
        }
      } else {
        assert (a + [x])[1..] == a[1..] + [x];
        if a[0] == b[0] {
          SubsequenceSnocBoth(a[1..], b[1..], x);
        } else {
          SubsequenceSnocBoth(a, b[1..], x);
        }
      }
    }
  }

  /** The loop of `dedupeMovimientos`: one pass with the set of keys seen so
      far; an element whose key was seen is skipped. */
  method KeepFirstLoop<T, K(==)>(s: seq<T>, key: T -> K) returns (out: seq<T>)
    ensures out == KeepFirst(s, key)
  {
    var seen: set<K> := {};
    out := [];
    var i := 0;
    while i < |s|
      invariant 0 <= i <= |s|
      invariant seen == Keys(s[..i], key)
      invariant out == KeepFirst(s[..i], key)
    {
      var k := key(s[i]);
      assert s[..i + 1] == s[..i] + [s[i]];
      KeysSnoc(s[..i], s[i], key);
      if k !in seen {
        seen := seen + {k};
        out := out + [s[i]];
      }
      i := i + 1;
    }
    assert s[..i] == s;
  }
}

=== FILE: frontend.dfy ===
/** The pure helpers of the browser page (public/app.js): HTML escaping of the
    table cells, the search filter, and the CSV export. */
module Frontend {
  import opened Js
  import opened Seqs
  import opened Strings
  import opened Movements

  // ---------------------------------------------------------------------------
  // escapeHtml
  // ---------------------------------------------------------------------------

  /** The five `replaceAll` calls of `escapeHtml`, `&` first. */
  function Escape(s: string): string {
    var a := ReplaceAll(s, "&", "&amp;");
    var b := ReplaceAll(a, "<", "&lt;");
    var c := ReplaceAll(b, ">", "&gt;");
    var d := ReplaceAll(c, "\"", "&quot;");
    ReplaceAll(d, "'", "&#039;")
  }

  /** `escapeHtml(str)`: `String(str || "")`, escaped. */
  function EscapeHtml(v: Value, host: Host): (r: string)
    ensures !Truthy(v) ==> r == []
    ensures v.Str? ==> r == EscapeEach(v.s)
    ensures v.Num? && v.n.Finite? && v.n.r != 0.0 ==> r == EscapeEach(host.show(v.n.r))
  {
    EscapeIsPerCharacter(Text(v, host));
    Escape(Text(v, host))
  }

  /** The entity a single character is written as. */
  function EscapeChar(c: char): (r: string)
    ensures r != []
    ensures '<' !in r && '>' !in r && '"' !in r && '\'' !in r
  {
    match c
    case '&' => "&amp;"
    case '<' => "&lt;"
    case '>' => "&gt;"
    case '"' => "&quot;"
    case '\'' => "&#039;"
    case _ => [c]
  }

  /** Escaping character by character: the reference the chain of
      `replaceAll` calls is compared with. */
  function EscapeEach(s: string): (r: string)
    ensures '<' !in r && '>' !in r && '"' !in r && '\'' !in r
  {
    if s == [] then [] else EscapeChar(s[0]) + EscapeEach(s[1..])
  }

  /** Replacing `&` first means no entity is escaped twice: the chain of
      replacements writes every character as its own entity. */
  lemma {:induction false} EscapeIsPerCharacter(s: string)
    ensures Escape(s) == EscapeEach(s)
  {
    if s != [] {
      var c, t := s[0], s[1..];
      assert s == [c] + t;
      EscapeConcat(c, t);
      EscapeIsPerCharacter(t);
      EscapeOne(c);
    }
  }

  /** Each `replaceAll` of one character distributes over a split after the
      first character. */
  lemma {:induction false} EscapeConcat(c: char, t: string)
    ensures Escape([c] + t) == Escape([c]) + Escape(t)
  {
    var a1, a2 := ReplaceAll([c], "&", "&amp;"), ReplaceAll(t, "&", "&amp;");
    ReplaceAllCharConcat([c], t, '&', "&amp;");
    var b1, b2 := ReplaceAll(a1, "<", "&lt;"), ReplaceAll(a2, "<", "&lt;");
    ReplaceAllCharConcat(a1, a2, '<', "&lt;");
    var c1, c2 := ReplaceAll(b1, ">", "&gt;"), ReplaceAll(b2, ">", "&gt;");
    ReplaceAllCharConcat(b1, b2, '>', "&gt;");
    var d1, d2 := ReplaceAll(c1, "\"", "&quot;"), ReplaceAll(c2, "\"", "&quot;");
    ReplaceAllCharConcat(c1, c2, '"', "&quot;");
    ReplaceAllCharConcat(d1, d2, '\'', "&#039;");
  }

  /** One character goes through the chain as its entity. */
  lemma {:induction false} EscapeOne(c: char)
    ensures Escape([c]) == EscapeChar(c)
  {
    if c == '&' {
      ReplaceAllSingle('&', "&amp;");
      PassesRest("&amp;", '<');
    } else {
      ReplaceAllAbsent([c], '&', "&amp;");
      if c == '<' {
        ReplaceAllSingle('<', "&lt;");
        PassesRest("&lt;", '>');
      } else {
        ReplaceAllAbsent([c], '<', "&lt;");
        if c == '>' {
          ReplaceAllSingle('>', "&gt;");
          PassesRest("&gt;", '"');
        } else {
          ReplaceAllAbsent([c], '>', "&gt;");
          if c == '"' {
            ReplaceAllSingle('"', "&quot;");
            ReplaceAllAbsent("&quot;", '\'', "&#039;");
          } else {
            ReplaceAllAbsent([c], '"', "&quot;");
            if c == '\'' {
              ReplaceAllSingle('\'', "&#039;");
            } else {
              ReplaceAllAbsent([c], '\'', "&#039;");
            }
          }
        }
      }
    }
  }

  /** An entity has none of the characters replaced after it, from `from` on
      in the order `<`, `>`, `"`, `'`. */
  lemma {:induction false} PassesRest(e: string, from: char)
    requires from == '<' || from == '>' || from == '"'
    requires '<' !in e && '>' !in e && '"' !in e && '\'' !in e
    ensures from == '<' ==> ReplaceAll(ReplaceAll(ReplaceAll(ReplaceAll(e, "<", "&lt;"), ">", "&gt;"), "\"", "&quot;"), "'", "&#039;") == e
    ensures from == '>' ==> ReplaceAll(ReplaceAll(ReplaceAll(e, ">", "&gt;"), "\"", "&quot;"), "'", "&#039;") == e
    ensures from == '"' ==> ReplaceAll(ReplaceAll(e, "\"", "&quot;"), "'", "&#039;") == e
  {
    ReplaceAllAbsent(e, '<', "&lt;");
    ReplaceAllAbsent(e, '>', "&gt;");
    ReplaceAllAbsent(e, '"', "&quot;");
    ReplaceAllAbsent(e, '\'', "&#039;");
  }

  /** Whether `s` starts with `p`. */
  predicate StartsWith(s: string, p: string) {
    |p| <= |s| && s[..|p|] == p
  }

  /** Decoding the five entities, left to right; any other `&` stands for itself. */
  function Unescape(s: string): string
    decreases |s|
  {
    if s == [] then []
    else if s[0] != '&' then [s[0]] + Unescape(s[1..])
    else if StartsWith(s, "&amp;") then "&" + Unescape(s[5..])
    else if StartsWith(s, "&lt;") then "<" + Unescape(s[4..])
    else if StartsWith(s, "&gt;") then ">" + Unescape(s[4..])
    else if StartsWith(s, "&quot;") then "\"" + Unescape(s[6..])
    else if StartsWith(s, "&#039;") then "'" + Unescape(s[6..])
    else "&" + Unescape(s[1..])
  }

  /** Decoding an escaped text gives the text back: nothing is escaped twice. */
  lemma {:induction false} UnescapeEscape(s: string)
    ensures Unescape(Escape(s)) == s
  {
    EscapeIsPerCharacter(s);
    UnescapeEach(s);
  }

  lemma {:induction false} UnescapeEach(s: string)
    ensures Unescape(EscapeEach(s)) == s
  {
    if s != [] {
      UnescapeEach(s[1..]);
      UnescapeChar(s[0], EscapeEach(s[1..]));
    }
  }

  /** The entity of one character decodes to that character. */
  lemma {:induction false} UnescapeChar(c: char, rest: string)
    ensures Unescape(EscapeChar(c) + rest) == [c] + Unescape(rest)
  {
    var s := EscapeChar(c) + rest;
    if c == '&' {
      DecodeAmp(rest);
    } else if c == '<' {
      DecodeLt(rest);
    } else if c == '>' {
      DecodeGt(rest);
    } else if c == '"' {
      DecodeQuot(rest);
    } else if c == '\'' {
      DecodeApos(rest);
    } else {
      assert s[0] == c && s[1..] == rest;
    }
  }

  lemma DecodeAmp(rest: string)
    ensures Unescape("&amp;" + rest) == "&" + Unescape(rest)
  {
    var s := "&amp;" + rest;
    assert s[..5] == "&amp;" && s[5..] == rest;
  }

  lemma DecodeLt(rest: string)
    ensures Unescape("&lt;" + rest) == "<" + Unescape(rest)
  {
    var s := "&lt;" + rest;
    assert s[1] == 'l' && s[..4] == "&lt;" && s[4..] == rest;
  }

  lemma DecodeGt(rest: string)
    ensures Unescape("&gt;" + rest) == ">" + Unescape(rest)
  {
    var s := "&gt;" + rest;
    assert s[1] == 'g' && s[..4] == "&gt;" && s[4..] == rest;
  }

  lemma DecodeQuot(rest: string)
    ensures Unescape("&quot;" + rest) == "\"" + Unescape(rest)
  {
    var s := "&quot;" + rest;
    assert s[1] == 'q' && s[..6] == "&quot;" && s[6..] == rest;
  }

  lemma DecodeApos(rest: string)
    ensures Unescape("&#039;" + rest) == "'" + Unescape(rest)
  {
    var s := "&#039;" + rest;
    assert s[1] == '#' && s[..6] == "&#039;" && s[6..] == rest;
  }

  // ---------------------------------------------------------------------------
  // applyFilter
  // ---------------------------------------------------------------------------

  /** `(searchInput.value || "").trim().toLowerCase()`. */
  function Query(input: string, host: Host): string {
    host.lower(Trim(input))
  }

  /** The text a row is searched in: its five fields separated by spaces,
      lower-cased. When lower-casing works character by character, the text
      starts with the lower-cased date. */
  function SearchText(r: Row, host: Host): (t: string)
    ensures LowerDistributes(host) ==> host.lower(r.fecha) <= t
  {
    var rest := " " + r.concepto + " " + host.show(r.retiros) + " "
                + host.show(r.depositos) + " " + host.show(r.saldo);
    host.lower(r.fecha + rest)
  }

  /** `toLowerCase` maps a concatenation to the concatenation of the parts'
      images, as a character-by-character mapping does. */
  ghost predicate LowerDistributes(host: Host) {
    forall a: string, b: string :: host.lower(a + b) == host.lower(a) + host.lower(b)
  }

  /** Searching for a row's own (trimmed) date finds the row. */
  lemma {:induction false} SearchFindsDate(r: Row, host: Host)
    requires LowerDistributes(host)
    requires Trim(r.fecha) == r.fecha
    ensures Matches(r, Query(r.fecha, host), host)
  {
    var t, q := SearchText(r, host), host.lower(r.fecha);
    assert t[0..|q|] == q;
    assert OccursAt(t, q, 0);
  }

  predicate Matches(r: Row, q: string, host: Host) {
    Contains(SearchText(r, host), q)
  }

  /** `applyFilter()`: every row for an empty query, otherwise the rows whose
      search text contains the query, in their original order. */
  function ApplyFilter(input: string, rows: seq<Row>, host: Host): (r: seq<Row>)
    ensures Query(input, host) == [] ==> r == rows
    ensures Query(input, host) != [] ==>
      forall x :: x in r <==> x in rows && Matches(x, Query(input, host), host)
    ensures Query(input, host) != [] ==>
      forall x :: multiset(r)[x] == if Matches(x, Query(input, host), host) then multiset(rows)[x] else 0
    ensures IsSubsequence(r, rows)
  {
    var q := Query(input, host);
    var keep := x => Matches(x, q, host);
    FilterIsSubsequence(rows, keep);
    if q == [] then
      FilterKeepsAll(rows, (x: Row) => true);
      FilterIsSubsequence(rows, (x: Row) => true);
      rows
    else
      forall x ensures x in Filter(rows, keep) <==> x in rows && Matches(x, q, host) {
        FilterMember(rows, keep, x);
      }
      forall x ensures multiset(Filter(rows, keep))[x] == if Matches(x, q, host) then multiset(rows)[x] else 0 {
        FilterOccurrences(rows, keep, x);
      }
      Filter(rows, keep)
  }

  /** Export takes the filtered rows unless there are none: `filtered.length ? filtered : movimientos`. */
  function ExportRows(filtered: seq<Row>, movimientos: seq<Row>): (r: seq<Row>)
    ensures r == [] <==> filtered == [] && movimientos == []
    ensures filtered != [] ==> r == filtered
    ensures filtered == [] ==> r == movimientos
  {
    if |filtered| > 0 then filtered else movimientos
  }

  /** A non-empty result of a search holds a row of the input that matches. */
  lemma FilteredWitness(f: seq<Row>, rows: seq<Row>, q: string, host: Host)
    requires forall x :: x in f <==> x in rows && Matches(x, q, host)
    ensures f != [] ==> exists i :: 0 <= i < |rows| && Matches(rows[i], q, host)
  {
    if f != [] {
      var x := f[0];
      assert x in f;
    }
  }

  /** What the export button writes after a search: a subsequence of the
      rows; all of them when the query matches none; otherwise, for a
      non-empty query, exactly the matching ones. */
  lemma {:induction false} ExportAfterFilter(input: string, rows: seq<Row>, host: Host)
    ensures IsSubsequence(ExportRows(ApplyFilter(input, rows, host), rows), rows)
    ensures (forall i :: 0 <= i < |rows| ==> !Matches(rows[i], Query(input, host), host)) ==>
      ExportRows(ApplyFilter(input, rows, host), rows) == rows
    ensures Query(input, host) != [] && (exists i :: 0 <= i < |rows| && Matches(rows[i], Query(input, host), host)) ==>
      forall x :: x in ExportRows(ApplyFilter(input, rows, host), rows) <==> x in rows && Matches(x, Query(input, host), host)
  {
    var q := Query(input, host);
    var f := ApplyFilter(input, rows, host);
    FilterKeepsAll(rows, (x: Row) => true);
    FilterIsSubsequence(rows, (x: Row) => true);
    if q != [] {
      if forall i :: 0 <= i < |rows| ==> !Matches(rows[i], q, host) {
        FilteredWitness(f, rows, q, host);
      } else {
        var i :| 0 <= i < |rows| && Matches(rows[i], q, host);
        assert rows[i] in f;
      }
    }
  }

  // ---------------------------------------------------------------------------
  // downloadCSV
  // ---------------------------------------------------------------------------

  const Header: string := "fecha,concepto,retiros,depositos,saldo"

  lemma HeaderSingleLine()
    ensures '\n' !in Header
  {
    assert forall i :: 0 <= i < |Header| ==> Header[i] != '\n';
  }

  /** A text field as RFC 4180 section 2 rule 7 writes it: in double quotes,
      with each double quote inside doubled. */
  function Quote(s: string): (r: string)
    ensures |r| >= 2 && r[0] == '"' && r[|r| - 1] == '"'
  {
    "\"" + ReplaceAll(s, "\"", "\"\"") + "\""
  }

  /** Reading a quoted field's inside back: a doubled quote is one quote. */
  function UndoubleQuotes(t: string): string
    decreases |t|
  {
    if t == [] then []
    else if |t| >= 2 && t[0] == '"' && t[1] == '"' then "\"" + UndoubleQuotes(t[2..])
    else [t[0]] + UndoubleQuotes(t[1..])
  }

  /** Reading a quoted field: drop the outer quotes, undouble the inner ones. */
  function Unquote(r: string): string {
    if |r| >= 2 then UndoubleQuotes(r[1..|r| - 1]) else r
  }

  /** Quoting can be undone: the field reads back as the original text. */
  lemma {:induction false} QuoteRoundTrip(s: string)
    ensures Unquote(Quote(s)) == s
  {
    var inner := ReplaceAll(s, "\"", "\"\"");
    assert Quote(s)[1..|Quote(s)| - 1] == inner;
    UndoubleDoubled(s);
  }

  lemma {:induction false} UndoubleDoubled(s: string)
    ensures UndoubleQuotes(ReplaceAll(s, "\"", "\"\"")) == s
  {
    if s != [] {
      var c, t := s[0], s[1..];
      assert s == [c] + t;
      ReplaceAllCharConcat([c], t, '"', "\"\"");
      UndoubleDoubled(t);
      var rest := ReplaceAll(t, "\"", "\"\"");
      if c == '"' {
        ReplaceAllSingle('"', "\"\"");
        var u := "\"\"" + rest;
        assert u[2..] == rest;
      } else {
        ReplaceAllAbsent([c], '"', "\"\"");
        var u := [c] + rest;
        assert u[1..] == rest;
      }
    }
  }

  /** One CSV line: quoted texts, then the three amounts as `String` shows them. */
  function CsvLine(r: Row, host: Host): (line: string)
    ensures Quote(r.fecha) + "," + Quote(r.concepto) + "," <= line
    ensures line == Quote(r.fecha) + "," + (Quote(r.concepto) + ","
                    + Join([host.show(r.retiros), host.show(r.depositos), host.show(r.saldo)], ","))
  {
    var a, b := Quote(r.fecha), Quote(r.concepto);
    var x, y, z := host.show(r.retiros), host.show(r.depositos), host.show(r.saldo);
    JoinFive(a, b, x, y, z, ",");
    Join([a, b, x, y, z], ",")
  }

  /** The header line followed by one line per row. */
  function CsvLines(rows: seq<Row>, host: Host): (r: seq<string>)
    ensures |r| == |rows| + 1 && r[0] == Header
    ensures forall i :: 0 <= i < |rows| ==> r[i + 1] == CsvLine(rows[i], host)
  {
    if rows == [] then [Header]
    else
      var rest := CsvLines(rows[1..], host);
      assert forall i :: 1 <= i < |rows| ==> rows[i] == rows[1..][i - 1];
      [Header] + [CsvLine(rows[0], host)] + rest[1..]
  }

  /** `lines.join("\n")`: the text of the downloaded file. */
  function Csv(rows: seq<Row>, host: Host): (text: string)
    ensures rows == [] ==> text == Header
    ensures rows != [] ==> Header + "\n" + CsvLine(rows[0], host) <= text
  {
    var lines := CsvLines(rows, host);
    if rows != [] then
      assert lines == [Header] + lines[1..];
      JoinCons(Header, lines[1..], "\n");
      if |rows| > 1 then
        assert lines[1..] == [lines[1]] + lines[2..];
        JoinCons(lines[1], lines[2..], "\n");
        Join(lines, "\n")
      else
        Join(lines, "\n")
    else
      Join(lines, "\n")
  }

  /** No field of the row holds a line break. */
  predicate SingleLineFields(r: Row, host: Host) {
    '\n' !in r.fecha && '\n' !in r.concepto
    && '\n' !in host.show(r.retiros) && '\n' !in host.show(r.depositos) && '\n' !in host.show(r.saldo)
  }

  lemma {:induction false} CsvLineSingle(r: Row, host: Host)
    requires SingleLineFields(r, host)
    ensures '\n' !in CsvLine(r, host)
  {
    ReplaceAllAvoids(r.fecha, "\"", "\"\"", '\n');
    ReplaceAllAvoids(r.concepto, "\"", "\"\"", '\n');
    var parts := [Quote(r.fecha), Quote(r.concepto), host.show(r.retiros), host.show(r.depositos), host.show(r.saldo)];
    JoinAvoids(parts, ",", '\n');
  }

  /** When no field holds a line break, the file splits into the header and
      exactly one line per row, in row order. */
  lemma {:induction false} CsvLineCount(rows: seq<Row>, host: Host)
    requires forall i :: 0 <= i < |rows| ==> SingleLineFields(rows[i], host)
    ensures Split(Csv(rows, host), '\n') == CsvLines(rows, host)
    ensures |Split(Csv(rows, host), '\n')| == |rows| + 1
  {
    var lines := CsvLines(rows, host);
    HeaderSingleLine();
    forall k | 0 <= k < |lines| ensures '\n' !in lines[k] {
      if k > 0 {
        CsvLineSingle(rows[k - 1], host);
      }
    }
    SplitJoin(lines, '\n');
  }
}

=== FILE: js.dfy ===
/** The JavaScript values the pipeline handles, and the two host operations the
    model keeps abstract. */
module Js {

  datatype Option<T> = None | Some(value: T)

  /** A JavaScript number: an exact finite value, or one of the non-finite ones. */
  datatype JsNumber = Finite(r: real) | NaN | Infinity(negative: bool)

  /** The shapes a field of a parsed oracle response can take: the JSON
      scalars, plus `undefined` for a missing field. */
  datatype Value = Null | Undefined | Bool(b: bool) | Num(n: JsNumber) | Str(s: string)

  /** `String(b)` for a boolean. */
  function BoolText(b: bool): string {
    if b then "true" else "false"
  }

  /** JavaScript's `Number.isInteger`. */
  predicate IsInteger(v: Value) {
    v.Num? && v.n.Finite? && v.n.r == v.n.r.Floor as real
  }

  /** Host behaviour that the model does not define: `String.prototype.toLowerCase`
      and the conversion of a number to its shortest decimal string
      (`String(n)`, template interpolation). Every property that depends on them
      says so in its `requires`. */
  datatype Host = Host(lower: string -> string, show: real -> string)
}

=== FILE: json_slice.dfy ===
/** `tryParseJsonLoose(outText)` (server.cjs:226-234, index.js:187-195): the
    text handed to `JSON.parse` is the trimmed reply cut from its first `{`
    to its last `}`, or the whole trimmed reply when there is no such pair. */
module JsonSlice {
  import opened Js
  import opened Strings

  /** The first `{` and the last `}` of `s`, when both exist and the `}` comes later. */
  predicate HasBraces(s: string) {
    IndexOf(s, '{').Some? && LastIndexOf(s, '}').Some?
    && LastIndexOf(s, '}').value > IndexOf(s, '{').value
  }

  /** Opens with `{` and closes with a later `}`. */
  predicate Braced(t: string) {
    2 <= |t| && t[0] == '{' && t[|t| - 1] == '}'
  }

  /** `r` sits in `s` at `i`, with no `{` before it and no `}` after it. */
  predicate BraceSliceAt(s: string, r: string, i: int) {
    0 <= i <= |s| - |r| && r == s[i..i + |r|] && '{' !in s[..i] && '}' !in s[i + |r|..]
  }

  /** The argument of `JSON.parse`. */
  function LooseJsonText(outText: string): (r: string)
    ensures HasBraces(Trim(outText)) ==> Braced(r)
    ensures HasBraces(Trim(outText)) ==> exists i :: BraceSliceAt(Trim(outText), r, i)
    ensures !HasBraces(Trim(outText)) ==> r == Trim(outText)
  {
    BraceCut(Trim(outText))
  }

  /** From the first `{` to the last `}` of `s`, or `s` itself. */
  function BraceCut(s: string): (r: string)
    ensures HasBraces(s) ==> Braced(r)
    ensures HasBraces(s) ==> exists i :: BraceSliceAt(s, r, i)
    ensures !HasBraces(s) ==> r == s
  {
    if HasBraces(s) then
      var i, j := IndexOf(s, '{').value, LastIndexOf(s, '}').value;
      var r := s[i..j + 1];
      assert s[i + |r|..] == s[j + 1..];
      assert BraceSliceAt(s, r, i);
      r
    else s
  }

  /** A text that already starts with `{` and ends with `}` is passed whole. */
  lemma {:induction false} BracedPassesWhole(t: string)
    requires Braced(t)
    ensures LooseJsonText(t) == t
  {
    TrimKeepsEnds(t);
    assert IndexOf(t, '{') == Some(0);
    assert LastIndexOf(t, '}') == Some(|t| - 1);
  }

  /** Slicing again changes nothing. */
  lemma {:induction false} LooseJsonTextIdempotent(outText: string)
    ensures LooseJsonText(LooseJsonText(outText)) == LooseJsonText(outText)
  {
    var s := Trim(outText);
    var r := LooseJsonText(outText);
    if HasBraces(s) {
      BracedPassesWhole(r);
    } else {
      TrimIdempotent(outText);
    }
  }
}

=== FILE: movements.dfy ===
/** Rows of a bank statement: normalising what the oracle returns
    (`normalizeMovimientos`, server.cjs:84-92) and removing repeated rows
    (`dedupeMovimientos`, server.cjs:94-110). index.js:123-149 holds the same
    code. */
module Movements {
  import opened Js
  import opened Seqs
  import opened Strings
  import opened Amount
  import opened Dedupe

  /** One element of the `movimientos` array of a parsed oracle reply. */
  datatype RawRow = RawRow(fecha: Value, concepto: Value, retiros: Value, depositos: Value, saldo: Value)

  /** A normalised row: trimmed texts and finite amounts. */
  datatype Row = Row(fecha: string, concepto: string, retiros: real, depositos: real, saldo: real)

  /** JavaScript truthiness of a field value. */
  predicate Truthy(v: Value) {
    match v
    case Null => false
    case Undefined => false
    case Bool(b) => b
    case Num(n) => !(n.NaN? || (n.Finite? && n.r == 0.0))
    case Str(s) => s != []
  }

  /** `String(v || "")`: a falsy value becomes the empty string. */
  function Text(v: Value, host: Host): (r: string)
    ensures !Truthy(v) ==> r == []
    ensures v.Str? ==> r == v.s
    ensures v == Bool(true) ==> r == "true"
  {
    if !Truthy(v) then ""
    else match v
      case Str(s) => s
      case Bool(b) => BoolText(b)
      case Num(n) =>
        (match n
         case Finite(x) => host.show(x)
         case Infinity(negative) => if negative then "-Infinity" else "Infinity"
         case NaN => "")
      case _ => ""
  }

  /** What `safeNumber` promises about the amount `x` it makes of `v`:
      nothing becomes 0, a finite number is kept, a non-finite one becomes 0,
      and text is read as a number inside the double range. */
  predicate SafeAmount(v: Value, x: real) {
    && (v.Null? || v.Undefined? ==> x == 0.0)
    && (v.Num? ==> x == (if v.n.Finite? then v.n.r else 0.0))
    && (v.Str? || v.Bool? ==> InDoubleRange(x))
  }

  /** One element of `movimientos.map(...)`: the texts are trimmed (a falsy
      field gives the empty text) and the amounts are made safe. */
  function NormalizeRow(m: RawRow, host: Host): (r: Row)
    ensures IsNormal(r)
    ensures m.fecha.Str? ==> r.fecha == Trim(m.fecha.s)
    ensures !Truthy(m.fecha) ==> r.fecha == []
    ensures m.concepto.Str? ==> r.concepto == Trim(m.concepto.s)
    ensures !Truthy(m.concepto) ==> r.concepto == []
    ensures SafeAmount(m.retiros, r.retiros) && SafeAmount(m.depositos, r.depositos)
    ensures SafeAmount(m.saldo, r.saldo)
  {
    TrimIdempotent(Text(m.fecha, host));
    TrimIdempotent(Text(m.concepto, host));
    TrimEmpty([]);
    Row(Trim(Text(m.fecha, host)), Trim(Text(m.concepto, host)),
        SafeNumber(m.retiros), SafeNumber(m.depositos), SafeNumber(m.saldo))
  }

  /** A row as normalisation leaves it: no white space around either text. */
  predicate IsNormal(r: Row) {
    Trim(r.fecha) == r.fecha && Trim(r.concepto) == r.concepto
  }

  /** `normalizeMovimientos(result)`: `movimientos` is `None` when the reply
      has none (or a falsy one), which gives no rows. */
  function NormalizeMovimientos(movimientos: Option<seq<RawRow>>, host: Host): (r: seq<Row>)
    ensures movimientos.None? ==> r == []
    ensures movimientos.Some? ==> |r| == |movimientos.value|
    ensures movimientos.Some? ==> forall i :: 0 <= i < |r| ==> r[i] == NormalizeRow(movimientos.value[i], host)
  {
    match movimientos
    case None => []
    case Some(ms) => NormalizeAll(ms, host)
  }

  /** `ms.map(...)`: one normalised row per raw row, in order. */
  function NormalizeAll(ms: seq<RawRow>, host: Host): (r: seq<Row>)
    ensures |r| == |ms|
    ensures forall i :: 0 <= i < |ms| ==> r[i] == NormalizeRow(ms[i], host)
  {
    Map(ms, Normalizer(host))
  }

  function Normalizer(host: Host): RawRow -> Row {
    m => NormalizeRow(m, host)
  }

  /** Every normalised row has its texts trimmed. */
  lemma {:induction false} NormalizedRowsAreNormal(movimientos: Option<seq<RawRow>>, host: Host)
    ensures forall i :: 0 <= i < |NormalizeMovimientos(movimientos, host)| ==>
      IsNormal(NormalizeMovimientos(movimientos, host)[i])
  {
    if movimientos.Some? {
      var ms := movimientos.value;
      var rows := NormalizeAll(ms, host);
      forall i | 0 <= i < |rows| ensures IsNormal(rows[i]) {
        assert rows[i] == NormalizeRow(ms[i], host);
      }
    }
  }

  /** A normalised row written back as oracle output: texts as strings, amounts as numbers. */
  function AsRaw(r: Row): RawRow {
    RawRow(Str(r.fecha), Str(r.concepto), Num(Finite(r.retiros)), Num(Finite(r.depositos)), Num(Finite(r.saldo)))
  }

  /** Normalisation is idempotent: a normalised row comes back unchanged. */
  lemma {:induction false} NormalizeRowIdempotent(r: Row, host: Host)
    requires IsNormal(r)
    ensures NormalizeRow(AsRaw(r), host) == r
  {
    var m := AsRaw(r);
    assert Text(m.fecha, host) == r.fecha;
    assert Text(m.concepto, host) == r.concepto;
    FiniteKept(r.retiros);
    FiniteKept(r.depositos);
    FiniteKept(r.saldo);
  }

  /** Normalising a concatenation normalises each part: rows gathered over
      several replies are the rows of each reply, in reply order. */
  lemma {:induction false} NormalizeConcat(a: seq<RawRow>, b: seq<RawRow>, host: Host)
    ensures NormalizeAll(a + b, host) == NormalizeAll(a, host) + NormalizeAll(b, host)
  {
    MapConcat(a, b, Normalizer(host));
  }

  // ---------------------------------------------------------------------------
  // De-duplication
  // ---------------------------------------------------------------------------

  /** The five parts of the de-duplication key: trimmed date, trimmed
      lower-cased description and the three amounts as `String` shows them. */
  function KeyParts(r: Row, host: Host): (p: seq<string>)
    ensures |p| == 5
  {
    [Trim(r.fecha), host.lower(Trim(r.concepto)), host.show(r.retiros), host.show(r.depositos), host.show(r.saldo)]
  }

  /** The key joins the parts with `|`: when no part holds a `|`, splitting
      the key gives the parts back. */
  function Key(r: Row, host: Host): (k: string)
    ensures NoBar(KeyParts(r, host)) ==> Split(k, '|') == KeyParts(r, host)
  {
    var parts := KeyParts(r, host);
    assert NoBar(parts) ==> Split(Join(parts, "|"), '|') == parts by {
      if NoBar(parts) {
        SplitJoin(parts, '|');
      }
    }
    Join(parts, "|")
  }

  function KeyOf(host: Host): Row -> string {
    r => Key(r, host)
  }

  /** `dedupeMovimientos(rows)`: the first row of every key, in order (the
      loop itself is `Dedupe.KeepFirstLoop`). */
  function DedupeMovimientos(rows: seq<Row>, host: Host): (r: seq<Row>)
    ensures r == KeepFirst(rows, KeyOf(host))
    ensures IsSubsequence(r, rows)
    ensures DistinctKeys(r, KeyOf(host))
    ensures Keys(r, KeyOf(host)) == Keys(rows, KeyOf(host))
  {
    KeepFirstSubsequence(rows, KeyOf(host));
    KeepFirstKeys(rows, KeyOf(host));
    KeepFirst(rows, KeyOf(host))
  }

  predicate NoBar(parts: seq<string>) {
    forall k :: 0 <= k < |parts| ==> '|' !in parts[k]
  }

  /** When no part contains `|`, two rows share a key exactly when their five
      parts agree. */
  lemma {:induction false} KeyExact(r1: Row, r2: Row, host: Host)
    requires NoBar(KeyParts(r1, host)) && NoBar(KeyParts(r2, host))
    ensures Key(r1, host) == Key(r2, host) <==> KeyParts(r1, host) == KeyParts(r2, host)
  {
    SplitJoin(KeyParts(r1, host), '|');
    SplitJoin(KeyParts(r2, host), '|');
  }

  /** The key spelled out: date, `|`, description, `|`, amounts. */
  lemma {:induction false} KeyShape(r: Row, host: Host)
    ensures Key(r, host) == Trim(r.fecha) + "|" + (host.lower(Trim(r.concepto)) + "|" + AmountsKey(r, host))
  {
    var f, c := Trim(r.fecha), host.lower(Trim(r.concepto));
    var x, y, z := host.show(r.retiros), host.show(r.depositos), host.show(r.saldo);
    assert KeyParts(r, host) == [f, c, x, y, z];
    JoinFive(f, c, x, y, z, "|");
  }

  /** The amount part of the key. */
  function AmountsKey(r: Row, host: Host): string {
    Join([host.show(r.retiros), host.show(r.depositos), host.show(r.saldo)], "|")
  }

  /** The join is not injective: a `|` inside a date can stand for the one
      between date and description. Rows whose (trimmed, lower-cased) date and
      description read `"a|b"`, `"c"` and `"a"`, `"b|c"`, with the same amounts,
      share a key, so the second is dropped although the rows differ. */
  lemma {:induction false} KeyCollision(r1: Row, r2: Row, host: Host, a: string, b: string, c: string)
    requires Trim(r1.fecha) == a + "|" + b && host.lower(Trim(r1.concepto)) == c
    requires Trim(r2.fecha) == a && host.lower(Trim(r2.concepto)) == b + "|" + c
    requires r1.retiros == r2.retiros && r1.depositos == r2.depositos && r1.saldo == r2.saldo
    ensures Trim(r1.fecha) != Trim(r2.fecha)
    ensures Key(r1, host) == Key(r2, host)
    ensures DedupeMovimientos([r1, r2], host) == [r1]
  {
    KeyShape(r1, host);
    KeyShape(r2, host);
    var j := AmountsKey(r1, host);
    assert AmountsKey(r2, host) == j;
    SeparatorShift(a, b, c, j, "|");
    KeepFirstPair(r1, r2, KeyOf(host));
  }

  /** Rows that differ only in the case of their description are duplicates:
      the later one is dropped. */
  lemma {:induction false} CaseInsensitiveDescription(r1: Row, r2: Row, host: Host)
    requires r1.fecha == r2.fecha && r1.retiros == r2.retiros
    requires r1.depositos == r2.depositos && r1.saldo == r2.saldo
    requires host.lower(Trim(r1.concepto)) == host.lower(Trim(r2.concepto))
    ensures Key(r1, host) == Key(r2, host)
    ensures DedupeMovimientos([r1, r2], host) == [r1]
  {
    assert KeyParts(r1, host) == KeyParts(r2, host);
    KeepFirstPair(r1, r2, KeyOf(host));
  }

  /** Rows whose parts differ (and hold no `|`) are both kept. */
  lemma {:induction false} DifferentPartsKept(r1: Row, r2: Row, host: Host)
    requires NoBar(KeyParts(r1, host)) && NoBar(KeyParts(r2, host))
    requires KeyParts(r1, host) != KeyParts(r2, host)
    ensures DedupeMovimientos([r1, r2], host) == [r1, r2]
  {
    KeyExact(r1, r2, host);
    KeepFirstPair(r1, r2, KeyOf(host));
  }
}

=== FILE: pipeline.dfy ===
/** The page pipeline of both servers: detecting which pages hold the table of
    movements (`detectTransactionPages`), extracting the rows from those pages
    (`extractMovimientosFromPages`), the fallback when nothing is detected, and
    the upload endpoint that strings them together. `server.cjs` is the
    Electron variant and `index.js` the standalone one; they differ in how they
    render pages and in the fallback. */
module Pipeline {
  import opened Js
  import opened Seqs
  import opened Dedupe
  import opened Movements
  import opened Classifier

  /** `server.cjs` renders with mutool and a failed page throws;
      `index.js` renders with pdf2pic and skips a page that fails. */
  datatype Variant = Electron | Standalone

  /** An awaited step: its value, or an error thrown out of the whole request. */
  datatype Outcome<T> = Done(value: T) | Aborted

  /** The vision model. `detect(listed, imaged)` answers a detection request
      whose prompt lists the page numbers `listed` and which carries images of
      the pages `imaged`: the `pages` field of the parsed reply, `None` when it
      is missing or falsy. `extract(imaged)` answers an extraction request with
      the `movimientos` field. Either call may throw (network, HTTP status,
      unparsable reply). */
  datatype Oracle = Oracle(
    detect: (seq<int>, seq<int>) -> Outcome<Option<seq<Value>>>,
    extract: seq<int> -> Outcome<Option<seq<RawRow>>>)

  /** Pages per detection request. */
  const DetectBatchSize: nat := 6
  /** Pages per extraction request. */
  const ExtractGroupSize: nat := 2
  /** Pages tried when detection finds none. */
  const FallbackPages: nat := 6

  /** `ToLength` of an integer: the length `Array.from({ length: n })` uses. */
  function Length(n: int): nat {
    if n < 0 then 0 else n
  }

  function Min(a: int, b: int): int {
    if a < b then a else b
  }

  /** `renderPagesToImages(pdfPath, chunk)`: the pages whose image was produced,
      in order. `render(p)` says whether page `p` converts. */
  function Render(variant: Variant, chunk: seq<int>, render: int -> bool): (r: Outcome<seq<int>>)
    ensures variant.Electron? ==> (r.Done? <==> forall i :: 0 <= i < |chunk| ==> render(chunk[i]))
    ensures variant.Electron? && r.Done? ==> r.value == chunk
    ensures variant.Standalone? ==> r.Done? && forall p :: p in r.value <==> p in chunk && render(p)
    ensures r.Done? ==> IsSubsequence(r.value, chunk) && forall i :: 0 <= i < |r.value| ==> render(r.value[i])
  {
    FilterIsSubsequence(chunk, render);
    FilterMember(chunk, render, 0);
    match variant
    case Electron =>
      if forall i :: 0 <= i < |chunk| ==> render(chunk[i]) then
        FilterKeepsAll(chunk, render);
        Done(chunk)
      else Aborted
    case Standalone =>
      assert forall p :: p in Filter(chunk, render) <==> p in chunk && render(p) by {
        forall p { FilterMember(chunk, render, p); }
      }
      Done(Filter(chunk, render))
  }

  /** The standalone server renders nothing from a chunk of which no page renders. */
  lemma {:induction false} NothingRendered(chunk: seq<int>, render: int -> bool)
    ensures (forall i :: 0 <= i < |chunk| ==> !render(chunk[i])) ==> Render(Standalone, chunk, render) == Done([])
  {
    if forall i :: 0 <= i < |chunk| ==> !render(chunk[i]) {
      FilterKeepsNone(chunk, render);
    }
  }

  // ---------------------------------------------------------------------------
  // Page detection
  // ---------------------------------------------------------------------------

  /** `Number.isInteger(p) && p >= 1 && p <= pageCount`. */
  predicate IsValidPage(v: Value, n: int) {
    IsInteger(v) && 1.0 <= v.n.r <= n as real
  }

  /** The page numbers a reply contributes to `found`. */
  function ValidPages(vals: seq<Value>, n: int): (r: set<int>)
    ensures forall p :: p in r ==> 1 <= p <= n
  {
    set i | 0 <= i < |vals| && IsValidPage(vals[i], n) :: vals[i].n.r.Floor
  }

  /** A page is kept exactly when the reply names it and it lies in
      `1..pageCount`: whichever batch the reply answered, so a page outside the
      batch is kept too. */
  lemma {:induction false} ValidPagesExactly(vals: seq<Value>, n: int, p: int)
    ensures p in ValidPages(vals, n) <==> 1 <= p <= n && Num(Finite(p as real)) in vals
  {
    if 1 <= p <= n && Num(Finite(p as real)) in vals {
      var i :| 0 <= i < |vals| && vals[i] == Num(Finite(p as real));
      assert IsValidPage(vals[i], n);
    }
  }

  /** The pages one detection batch contributes. The standalone server skips a
      batch of which no page rendered, without asking the oracle. */
  function DetectBatch(variant: Variant, n: int, chunk: seq<int>, render: int -> bool, oracle: Oracle): (r: Outcome<set<int>>)
    ensures r.Done? ==> forall p :: p in r.value ==> 1 <= p <= n
  {
    match Render(variant, chunk, render)
    case Aborted => Aborted
    case Done(imgs) =>
      if variant.Standalone? && imgs == [] then Done({})
      else
        match oracle.detect(chunk, imgs)
        case Aborted => Aborted
        case Done(pages) => Done(ValidPages(if pages.Some? then pages.value else [], n))
  }

  /** In the Electron variant one failed render throws; in the standalone
      variant a batch with no rendered page adds nothing. */
  lemma {:induction false} DetectBatchRender(variant: Variant, n: int, chunk: seq<int>, render: int -> bool, oracle: Oracle)
    ensures var r := DetectBatch(variant, n, chunk, render, oracle);
            && (variant.Electron? && (exists i :: 0 <= i < |chunk| && !render(chunk[i])) ==> r.Aborted?)
            && (variant.Standalone? && (forall i :: 0 <= i < |chunk| ==> !render(chunk[i])) ==> r == Done({}))
  {
    NothingRendered(chunk, render);
  }

  /** The detection loop, adding each batch's pages to `found`. */
  function DetectLoop(variant: Variant, n: int, batches: seq<seq<int>>, render: int -> bool,
                      oracle: Oracle, found: set<int>): (r: Outcome<set<int>>)
    ensures (forall p :: p in found ==> 1 <= p <= n) && r.Done? ==> forall p :: p in r.value ==> 1 <= p <= n
  {
    if batches == [] then Done(found)
    else
      match DetectBatch(variant, n, batches[0], render, oracle)
      case Aborted => Aborted
      case Done(ps) => DetectLoop(variant, n, batches[1..], render, oracle, found + ps)
  }

  /** Some batch reply names page `p`. */
  predicate ReportedBy(variant: Variant, n: int, batches: seq<seq<int>>, render: int -> bool, oracle: Oracle, p: int) {
    exists k :: 0 <= k < |batches| && DetectBatch(variant, n, batches[k], render, oracle).Done?
                && p in DetectBatch(variant, n, batches[k], render, oracle).value
  }

  /** The pages every batch reports, as a union over the batches, or `Aborted`
      when one of them throws. */
  function Reported(variant: Variant, n: int, batches: seq<seq<int>>, render: int -> bool,
                    oracle: Oracle): (r: Outcome<set<int>>)
    ensures r.Done? ==> forall p :: p in r.value <==> ReportedBy(variant, n, batches, render, oracle, p)
  {
    if batches == [] then Done({})
    else
      var head := DetectBatch(variant, n, batches[0], render, oracle);
      var rest := Reported(variant, n, batches[1..], render, oracle);
      if head.Aborted? || rest.Aborted? then Aborted
      else
        forall p ensures p in head.value + rest.value <==> ReportedBy(variant, n, batches, render, oracle, p) {
          ReportedByCons(variant, n, batches, render, oracle, p);
        }
        Done(head.value + rest.value)
  }

  /** A page is reported by a list of batches exactly when the first batch or
      one of the others reports it. */
  lemma {:induction false} ReportedByCons(variant: Variant, n: int, batches: seq<seq<int>>, render: int -> bool,
                                          oracle: Oracle, p: int)
    requires batches != [] && DetectBatch(variant, n, batches[0], render, oracle).Done?
    ensures ReportedBy(variant, n, batches, render, oracle, p) <==>
            p in DetectBatch(variant, n, batches[0], render, oracle).value
            || ReportedBy(variant, n, batches[1..], render, oracle, p)
  {
    ReportedByTail(variant, n, batches, render, oracle, p);
    ReportedBySplit(variant, n, batches, render, oracle, p);
  }

  lemma ReportedByTail(variant: Variant, n: int, batches: seq<seq<int>>, render: int -> bool, oracle: Oracle, p: int)
    requires batches != []
    ensures ReportedBy(variant, n, batches[1..], render, oracle, p) ==> ReportedBy(variant, n, batches, render, oracle, p)
  {
    if ReportedBy(variant, n, batches[1..], render, oracle, p) {
      var k :| 0 <= k < |batches[1..]| && DetectBatch(variant, n, batches[1..][k], render, oracle).Done?
               && p in DetectBatch(variant, n, batches[1..][k], render, oracle).value;
      assert batches[1..][k] == batches[k + 1];
    }
  }

  lemma ReportedBySplit(variant: Variant, n: int, batches: seq<seq<int>>, render: int -> bool, oracle: Oracle, p: int)
    requires batches != []
    ensures ReportedBy(variant, n, batches, render, oracle, p) ==>
            (DetectBatch(variant, n, batches[0], render, oracle).Done?
             && p in DetectBatch(variant, n, batches[0], render, oracle).value)
            || ReportedBy(variant, n, batches[1..], render, oracle, p)
  {
    if ReportedBy(variant, n, batches, render, oracle, p) {
      var k :| 0 <= k < |batches| && DetectBatch(variant, n, batches[k], render, oracle).Done?
               && p in DetectBatch(variant, n, batches[k], render, oracle).value;
      if k > 0 {
        assert batches[k] == batches[1..][k - 1];
      }
    }
  }

  /** The union throws exactly when some batch throws. */
  lemma {:induction false} ReportedDone(variant: Variant, n: int, batches: seq<seq<int>>, render: int -> bool,
                                        oracle: Oracle)
    ensures Reported(variant, n, batches, render, oracle).Done? <==>
            forall k :: 0 <= k < |batches| ==> DetectBatch(variant, n, batches[k], render, oracle).Done?
  {
    if batches != [] {
      ReportedDone(variant, n, batches[1..], render, oracle);
      if DetectBatch(variant, n, batches[0], render, oracle).Done? {
        if Reported(variant, n, batches[1..], render, oracle).Done? {
          forall k | 1 <= k < |batches| ensures DetectBatch(variant, n, batches[k], render, oracle).Done? {
            assert batches[k] == batches[1..][k - 1];
          }
        } else {
          var k :| 0 <= k < |batches[1..]| && !DetectBatch(variant, n, batches[1..][k], render, oracle).Done?;
          assert batches[1..][k] == batches[k + 1];
        }
      }
    }
  }

  /** The loop gathers what the batches report: `found` together with the
      union of the batch replies, and it throws when a batch throws. */
  lemma {:induction false} DetectLoopGathers(variant: Variant, n: int, batches: seq<seq<int>>,
                                             render: int -> bool, oracle: Oracle, found: set<int>)
    ensures var r := DetectLoop(variant, n, batches, render, oracle, found);
            var u := Reported(variant, n, batches, render, oracle);
            r.Done? == u.Done? && (r.Done? ==> r.value == found + u.value)
  {
    if batches != [] {
      var head := DetectBatch(variant, n, batches[0], render, oracle);
      if head.Done? {
        DetectLoopGathers(variant, n, batches[1..], render, oracle, found + head.value);
      }
    }
  }

  /** The detection batches: `[1..pageCount]` cut into runs of six. */
  function DetectionBatches(n: int): (r: seq<seq<int>>)
    ensures Flatten(r) == OneTo(Length(n))
    ensures forall k :: 0 <= k < |r| ==> 0 < |r[k]| <= DetectBatchSize
  {
    Chunks(OneTo(Length(n)), DetectBatchSize)
  }

  /** `detectTransactionPages(pdfPath, pageCount)`: the pages found, ascending
      and without repeats. */
  function DetectTransactionPages(variant: Variant, n: int, render: int -> bool, oracle: Oracle): (r: Outcome<seq<int>>)
    ensures r.Done? ==> StrictlyIncreasing(r.value) && forall i :: 0 <= i < |r.value| ==> 1 <= r.value[i] <= n
  {
    match DetectLoop(variant, n, DetectionBatches(n), render, oracle, {})
    case Aborted => Aborted
    case Done(found) =>
      var r := SortedElements(found);
      assert forall i :: 0 <= i < |r| ==> r[i] in found;
      Done(r)
  }

  /** Detection returns a page exactly when some batch reply names it, and
      throws exactly when some batch throws. */
  lemma {:induction false} DetectedPages(variant: Variant, n: int, render: int -> bool, oracle: Oracle, p: int)
    ensures var r := DetectTransactionPages(variant, n, render, oracle);
            var batches := DetectionBatches(n);
            && (r.Done? <==> forall k :: 0 <= k < |batches| ==> DetectBatch(variant, n, batches[k], render, oracle).Done?)
            && (r.Done? ==> (p in r.value <==> ReportedBy(variant, n, batches, render, oracle, p)))
  {
    DetectLoopGathers(variant, n, DetectionBatches(n), render, oracle, {});
    ReportedDone(variant, n, DetectionBatches(n), render, oracle);
  }

  // ---------------------------------------------------------------------------
  // Extraction
  // ---------------------------------------------------------------------------

  /** The rows one extraction group contributes, normalised. The standalone
      server skips a group of which no page rendered. */
  function ExtractGroup(variant: Variant, group: seq<int>, render: int -> bool, oracle: Oracle, host: Host): (r: Outcome<seq<Row>>)
    ensures r.Done? ==> forall i :: 0 <= i < |r.value| ==> IsNormal(r.value[i])
  {
    match Render(variant, group, render)
    case Aborted => Aborted
    case Done(imgs) =>
      if variant.Standalone? && imgs == [] then Done([])
      else
        match oracle.extract(imgs)
        case Aborted => Aborted
        case Done(m) => Done(NormalizeMovimientos(m, host))
  }

  /** In the Electron variant a failed render throws; in the standalone
      variant a group with no rendered page adds nothing. */
  lemma {:induction false} ExtractGroupRender(variant: Variant, group: seq<int>, render: int -> bool, oracle: Oracle, host: Host)
    ensures var r := ExtractGroup(variant, group, render, oracle, host);
            && (variant.Electron? && (exists i :: 0 <= i < |group| && !render(group[i])) ==> r.Aborted?)
            && (variant.Standalone? && (forall i :: 0 <= i < |group| ==> !render(group[i])) ==> r == Done([]))
  {
    NothingRendered(group, render);
  }

  /** The extraction loop: `all = all.concat(normalizeMovimientos(result))`. */
  function ExtractLoop(variant: Variant, groups: seq<seq<int>>, render: int -> bool, oracle: Oracle,
                       host: Host, all: seq<Row>): (r: Outcome<seq<Row>>)
    ensures r.Done? ==> all <= r.value
  {
    if groups == [] then Done(all)
    else
      match ExtractGroup(variant, groups[0], render, oracle, host)
      case Aborted => Aborted
      case Done(rows) => ExtractLoop(variant, groups[1..], render, oracle, host, all + rows)
  }

  /** The rows of every group in group order, or `Aborted` when a group throws. */
  function GroupRows(variant: Variant, groups: seq<seq<int>>, render: int -> bool, oracle: Oracle,
                     host: Host): Outcome<seq<Row>>
  {
    if groups == [] then Done([])
    else
      var head := ExtractGroup(variant, groups[0], render, oracle, host);
      var rest := GroupRows(variant, groups[1..], render, oracle, host);
      if head.Aborted? || rest.Aborted? then Aborted else Done(head.value + rest.value)
  }

  /** Gathering throws exactly when some group throws. */
  lemma {:induction false} GroupRowsDone(variant: Variant, groups: seq<seq<int>>, render: int -> bool, oracle: Oracle,
                                         host: Host)
    ensures GroupRows(variant, groups, render, oracle, host).Done? <==>
            forall k :: 0 <= k < |groups| ==> ExtractGroup(variant, groups[k], render, oracle, host).Done?
  {
    if groups != [] {
      GroupRowsDone(variant, groups[1..], render, oracle, host);
      if ExtractGroup(variant, groups[0], render, oracle, host).Done? {
        if GroupRows(variant, groups[1..], render, oracle, host).Done? {
          forall k | 1 <= k < |groups| ensures ExtractGroup(variant, groups[k], render, oracle, host).Done? {
            assert groups[k] == groups[1..][k - 1];
          }
        } else {
          var k :| 0 <= k < |groups[1..]| && !ExtractGroup(variant, groups[1..][k], render, oracle, host).Done?;
          assert groups[1..][k] == groups[k + 1];
        }
      }
    }
  }

  /** The loop appends the rows of every group, in order, to `all`. */
  lemma {:induction false} ExtractLoopAppends(variant: Variant, groups: seq<seq<int>>, render: int -> bool,
                                              oracle: Oracle, host: Host, all: seq<Row>)
    ensures var r := ExtractLoop(variant, groups, render, oracle, host, all);
            var g := GroupRows(variant, groups, render, oracle, host);
            r.Done? == g.Done? && (r.Done? ==> r.value == all + g.value)
  {
    if groups != [] {
      var head := ExtractGroup(variant, groups[0], render, oracle, host);
      if head.Done? {
        ExtractLoopAppends(variant, groups[1..], render, oracle, host, all + head.value);
        var g := GroupRows(variant, groups[1..], render, oracle, host);
        if g.Done? {
          AppendAssoc(all, head.value, g.value);
        }
      }
    }
  }

  /** `extractMovimientosFromPages(pdfPath, pages)`: the pages in pairs, the
      replies normalised and concatenated, then de-duplicated. */
  function ExtractMovimientos(variant: Variant, pages: seq<int>, render: int -> bool, oracle: Oracle,
                              host: Host): (r: Outcome<seq<Row>>)
    ensures r.Done? ==> DistinctKeys(r.value, KeyOf(host))
    ensures r.Done? ==> forall i :: 0 <= i < |r.value| ==> IsNormal(r.value[i])
  {
    match ExtractLoop(variant, Chunks(pages, ExtractGroupSize), render, oracle, host, [])
    case Aborted => Aborted
    case Done(all) =>
      var r := DedupeMovimientos(all, host);
      ExtractNormal(variant, Chunks(pages, ExtractGroupSize), render, oracle, host, []);
      SubsequenceKeepsAll(r, all, IsNormal);
      Done(r)
  }

  /** Every row the loop gathers is normalised. */
  lemma {:induction false} ExtractNormal(variant: Variant, groups: seq<seq<int>>, render: int -> bool,
                                         oracle: Oracle, host: Host, all: seq<Row>)
    requires forall i :: 0 <= i < |all| ==> IsNormal(all[i])
    ensures var r := ExtractLoop(variant, groups, render, oracle, host, all);
            r.Done? ==> forall i :: 0 <= i < |r.value| ==> IsNormal(r.value[i])
  {
    if groups != [] {
      var head := ExtractGroup(variant, groups[0], render, oracle, host);
      if head.Done? {
        ExtractNormal(variant, groups[1..], render, oracle, host, all + head.value);
      }
    }
  }

  /** Extraction is the de-duplication of the rows of every group of two
      pages, in page order. */
  lemma {:induction false} ExtractionIsDedupeOfGroups(variant: Variant, pages: seq<int>, render: int -> bool,
                                                      oracle: Oracle, host: Host)
    ensures var r := ExtractMovimientos(variant, pages, render, oracle, host);
            var g := GroupRows(variant, Chunks(pages, ExtractGroupSize), render, oracle, host);
            r.Done? == g.Done? && (r.Done? ==> r.value == DedupeMovimientos(g.value, host))
  {
    var groups := Chunks(pages, ExtractGroupSize);
    ExtractLoopAppends(variant, groups, render, oracle, host, []);
    ExtractFromLoop(variant, pages, render, oracle, host);
    DedupeThroughLoop(ExtractMovimientos(variant, pages, render, oracle, host),
                      ExtractLoop(variant, groups, render, oracle, host, []),
                      GroupRows(variant, groups, render, oracle, host), host);
  }

  /** Chaining the two steps: the loop gathers the group rows after an empty
      start, and extraction de-duplicates what the loop gathers. */
  lemma DedupeThroughLoop(r: Outcome<seq<Row>>, l: Outcome<seq<Row>>, g: Outcome<seq<Row>>, host: Host)
    requires l.Done? == g.Done? && (l.Done? ==> l.value == [] + g.value)
    requires r.Done? == l.Done? && (r.Done? ==> r.value == DedupeMovimientos(l.value, host))
    ensures r.Done? == g.Done? && (r.Done? ==> r.value == DedupeMovimientos(g.value, host))
  {
    if g.Done? {
      assert [] + g.value == g.value;
    }
  }

  /** Extraction de-duplicates what the loop gathers. */
  lemma ExtractFromLoop(variant: Variant, pages: seq<int>, render: int -> bool, oracle: Oracle, host: Host)
    ensures var l := ExtractLoop(variant, Chunks(pages, ExtractGroupSize), render, oracle, host, []);
            var r := ExtractMovimientos(variant, pages, render, oracle, host);
            r.Done? == l.Done? && (r.Done? ==> r.value == DedupeMovimientos(l.value, host))
  {
  }

  // ---------------------------------------------------------------------------
  // Fallback and the upload endpoint
  // ---------------------------------------------------------------------------

  /** What the endpoint reports: the pages used and the rows found. */
  datatype Extraction = Extraction(pages: seq<int>, movimientos: seq<Row>)

  /** server.cjs:434-438: a page count of 0 throws; when detection finds
      nothing the first `min(6, pageCount)` pages are used. */
  function ElectronPages(n: int, render: int -> bool, oracle: Oracle): (r: Outcome<seq<int>>)
    ensures n == 0 ==> r.Aborted?
    ensures n != 0 ==> (r.Aborted? <==> DetectTransactionPages(Electron, n, render, oracle).Aborted?)
    ensures n > 0 && DetectTransactionPages(Electron, n, render, oracle) == Done([]) ==>
      r == Done(OneTo(Min(FallbackPages, n)))
    ensures n != 0 && DetectTransactionPages(Electron, n, render, oracle).Done?
            && DetectTransactionPages(Electron, n, render, oracle).value != [] ==>
      r == DetectTransactionPages(Electron, n, render, oracle)
    ensures r.Done? ==> forall i :: 0 <= i < |r.value| ==> 1 <= r.value[i] <= n
    ensures n > 0 && r.Done? ==> r.value != []
  {
    if n == 0 then Aborted
    else
      match DetectTransactionPages(Electron, n, render, oracle)
      case Aborted => Aborted
      case Done(pages) => Done(if pages == [] then OneTo(Length(Min(FallbackPages, n))) else pages)
  }

  /** The upload endpoint of `server.cjs` after decryption and page counting. */
  function ElectronUpload(n: int, render: int -> bool, oracle: Oracle, host: Host): (r: Outcome<Extraction>)
    ensures r.Done? <==> ElectronPages(n, render, oracle).Done?
                         && ExtractMovimientos(Electron, ElectronPages(n, render, oracle).value, render, oracle, host).Done?
    ensures r.Done? ==> r.value.pages == ElectronPages(n, render, oracle).value
    ensures r.Done? ==> Done(r.value.movimientos) == ExtractMovimientos(Electron, r.value.pages, render, oracle, host)
    ensures r.Done? ==> forall i :: 0 <= i < |r.value.pages| ==> 1 <= r.value.pages[i] <= n
    ensures r.Done? ==> DistinctKeys(r.value.movimientos, KeyOf(host))
  {
    match ElectronPages(n, render, oracle)
    case Aborted => Aborted
    case Done(pages) =>
      match ExtractMovimientos(Electron, pages, render, oracle, host)
      case Aborted => Aborted
      case Done(rows) => Done(Extraction(pages, rows))
  }

  /** index.js:424-433, the scanned branch: detection runs only for a positive
      page count, and the fallback is always pages 1 to 6. */
  function ScannedPages(n: int, render: int -> bool, oracle: Oracle): (r: Outcome<seq<int>>)
    ensures r.Done? ==> r.value != []
    ensures n <= 0 ==> r == Done(OneTo(FallbackPages))
    ensures n > 0 ==> (r.Aborted? <==> DetectTransactionPages(Standalone, n, render, oracle).Aborted?)
    ensures n > 0 && DetectTransactionPages(Standalone, n, render, oracle) == Done([]) ==>
      r == Done(OneTo(FallbackPages))
    ensures n > 0 && DetectTransactionPages(Standalone, n, render, oracle).Done?
            && DetectTransactionPages(Standalone, n, render, oracle).value != [] ==>
      r == DetectTransactionPages(Standalone, n, render, oracle)
  {
    var detected := if n > 0 then DetectTransactionPages(Standalone, n, render, oracle) else Done([]);
    match detected
    case Aborted => Aborted
    case Done(pages) => Done(if pages == [] then OneTo(FallbackPages) else pages)
  }

  /** index.js:447-449, the text branch: detection runs for any non-zero page count. */
  function TextPages(n: int, render: int -> bool, oracle: Oracle): (r: Outcome<seq<int>>)
    ensures r.Done? ==> r.value != []
    ensures n == 0 ==> r == Done(OneTo(FallbackPages))
    ensures n != 0 ==> (r.Aborted? <==> DetectTransactionPages(Standalone, n, render, oracle).Aborted?)
    ensures n != 0 && DetectTransactionPages(Standalone, n, render, oracle) == Done([]) ==>
      r == Done(OneTo(FallbackPages))
    ensures n != 0 && DetectTransactionPages(Standalone, n, render, oracle).Done?
            && DetectTransactionPages(Standalone, n, render, oracle).value != [] ==>
      r == DetectTransactionPages(Standalone, n, render, oracle)
  {
    var detected := if n != 0 then DetectTransactionPages(Standalone, n, render, oracle) else Done([]);
    match detected
    case Aborted => Aborted
    case Done(pages) => Done(if pages == [] then OneTo(FallbackPages) else pages)
  }

  /** The two branches choose the same pages: for a negative count the text
      branch detects over no batches and finds nothing either. */
  lemma {:induction false} BranchesChooseSamePages(n: int, render: int -> bool, oracle: Oracle)
    ensures ScannedPages(n, render, oracle) == TextPages(n, render, oracle)
  {
    if n < 0 {
      assert OneTo(Length(n)) == [];
      assert DetectionBatches(n) == [];
      assert DetectLoop(Standalone, n, [], render, oracle, {}) == Done({});
      assert DetectTransactionPages(Standalone, n, render, oracle) == Done([]);
    }
  }

  /** The fallback of the standalone server names pages 1 to 6 whatever the
      page count: with fewer pages it names pages the document lacks. */
  lemma {:induction false} ScannedFallbackBeyondCount(n: int, render: int -> bool, oracle: Oracle)
    requires 0 < n < FallbackPages
    requires DetectTransactionPages(Standalone, n, render, oracle) == Done([])
    ensures ScannedPages(n, render, oracle) == Done([1, 2, 3, 4, 5, 6])
    ensures exists i :: 0 <= i < |ScannedPages(n, render, oracle).value| && ScannedPages(n, render, oracle).value[i] > n
  {
    assert OneTo(6)[5] == 6;
    assert OneTo(6) == [1, 2, 3, 4, 5, 6];
  }

  /** The response of the standalone endpoint. */
  datatype Response = Response(modo: string, result: Extraction)

  /** The pages chosen, then the rows extracted from them. */
  function ExtractFrom(pages: Outcome<seq<int>>, render: int -> bool, oracle: Oracle, host: Host): (r: Outcome<Extraction>)
    ensures r.Done? ==> pages.Done? && r.value.pages == pages.value
    ensures r.Done? <==> pages.Done? && ExtractMovimientos(Standalone, pages.value, render, oracle, host).Done?
    ensures r.Done? ==> Done(r.value.movimientos) == ExtractMovimientos(Standalone, r.value.pages, render, oracle, host)
    ensures r.Done? ==> DistinctKeys(r.value.movimientos, KeyOf(host))
  {
    match pages
    case Aborted => Aborted
    case Done(ps) =>
      match ExtractMovimientos(Standalone, ps, render, oracle, host)
      case Aborted => Aborted
      case Done(rows) => Done(Extraction(ps, rows))
  }

  /** The upload endpoint of `index.js` after parsing: the scanned branch is
      labelled `vision_scanned` and the text branch `vision`. */
  function StandaloneUpload(text: Option<string>, fileSize: int, n: int, render: int -> bool,
                            oracle: Oracle, host: Host): (r: Outcome<Response>)
    ensures r.Done? ==> r.value.modo == Mode(IsScannedLike(text, fileSize))
    ensures r.Done? <==> ExtractFrom(Branch(text, fileSize, n, render, oracle), render, oracle, host).Done?
    ensures r.Done? ==> Branch(text, fileSize, n, render, oracle).Done?
                        && r.value.result.pages == Branch(text, fileSize, n, render, oracle).value
    ensures r.Done? ==> Done(r.value.result.movimientos)
                        == ExtractMovimientos(Standalone, r.value.result.pages, render, oracle, host)
    ensures r.Done? ==> r.value.result.pages != [] && DistinctKeys(r.value.result.movimientos, KeyOf(host))
  {
    var scanned := IsScannedLike(text, fileSize);
    match ExtractFrom(Branch(text, fileSize, n, render, oracle), render, oracle, host)
    case Aborted => Aborted
    case Done(e) => Done(Response(Mode(scanned), e))
  }

  /** The pages the branch chosen by `isScannedLike` uses. */
  function Branch(text: Option<string>, fileSize: int, n: int, render: int -> bool, oracle: Oracle): Outcome<seq<int>> {
    if IsScannedLike(text, fileSize) then ScannedPages(n, render, oracle) else TextPages(n, render, oracle)
  }

  /** The `modo` label of a response. */
  function Mode(scanned: bool): (m: string)
    ensures scanned <==> m == "vision_scanned"
    ensures !scanned <==> m == "vision"
  {
    if scanned then "vision_scanned" else "vision"
  }

  /** Either branch ends in what the text branch computes. */
  lemma {:induction false} UploadIsTextBranch(text: Option<string>, fileSize: int, n: int, render: int -> bool,
                                              oracle: Oracle, host: Host)
    ensures var r := StandaloneUpload(text, fileSize, n, render, oracle, host);
            var e := ExtractFrom(TextPages(n, render, oracle), render, oracle, host);
            r.Done? == e.Done? && (r.Done? ==> r.value.result == e.value)
  {
    BranchesChooseSamePages(n, render, oracle);
  }

  /** Whether the text looks scanned changes only the label: the pages and
      rows are the same for any text and file size. */
  lemma {:induction false} ScannedOnlyLabels(text1: Option<string>, size1: int, text2: Option<string>, size2: int,
                                             n: int, render: int -> bool, oracle: Oracle, host: Host)
    ensures var r1 := StandaloneUpload(text1, size1, n, render, oracle, host);
            var r2 := StandaloneUpload(text2, size2, n, render, oracle, host);
            r1.Done? == r2.Done? && (r1.Done? ==> r1.value.result == r2.value.result)
  {
    UploadIsTextBranch(text1, size1, n, render, oracle, host);
    UploadIsTextBranch(text2, size2, n, render, oracle, host);
  }
}

=== FILE: seqs.dfy ===
/** Sequence utilities shared by the back end and the front end: filtering,
    flattening, fixed-size chunking, subsequences and ascending order. */
module Seqs {

  /** The elements of `s` that satisfy `p`, in their original order
      (JavaScript's `Array.prototype.filter`, and a regex replace that deletes
      every character of a class). */
  function Filter<T>(s: seq<T>, p: T -> bool): (r: seq<T>)
    ensures |r| <= |s|
    ensures forall i :: 0 <= i < |r| ==> p(r[i])
  {
    if s == [] then [] else (if p(s[0]) then [s[0]] else []) + Filter(s[1..], p)
  }

  lemma {:induction false} FilterConcat<T>(a: seq<T>, b: seq<T>, p: T -> bool)
    ensures Filter(a + b, p) == Filter(a, p) + Filter(b, p)
  {
    if a == [] {
      assert a + b == b;
    } else {
      assert (a + b)[1..] == a[1..] + b;
      FilterConcat(a[1..], b, p);
    }
  }

  /** Filtering with two predicates that agree on every element of `s` gives the same result. */
  lemma {:induction false} FilterCongruent<T>(s: seq<T>, p: T -> bool, q: T -> bool)
    requires forall i :: 0 <= i < |s| ==> p(s[i]) == q(s[i])
    ensures Filter(s, p) == Filter(s, q)
  {
    if s != [] {
      FilterCongruent(s[1..], p, q);
    }
  }

  /** Filtering twice is filtering once with the conjunction. */
  lemma {:induction false} FilterFilter<T>(s: seq<T>, p: T -> bool, q: T -> bool, pq: T -> bool)
    requires forall i :: 0 <= i < |s| ==> pq(s[i]) == (p(s[i]) && q(s[i]))
    ensures Filter(Filter(s, p), q) == Filter(s, pq)
  {
    if s != [] {
      FilterFilter(s[1..], p, q, pq);
      var head := if p(s[0]) then [s[0]] else [];
      FilterConcat(head, Filter(s[1..], p), q);
    }
  }

  lemma {:induction false} FilterMember<T>(s: seq<T>, p: T -> bool, x: T)
    ensures x in Filter(s, p) <==> x in s && p(x)
  {
    if s != [] {
      FilterMember(s[1..], p, x);
      assert x in s <==> x == s[0] || x in s[1..];
    }
  }

  /** A filter that every element passes is the identity. */
  lemma {:induction false} FilterKeepsAll<T>(s: seq<T>, p: T -> bool)
    requires forall i :: 0 <= i < |s| ==> p(s[i])
    ensures Filter(s, p) == s
  {
    if s != [] {
      FilterKeepsAll(s[1..], p);
    }
  }

  /** A filter that no element passes leaves nothing. */
  lemma {:induction false} FilterKeepsNone<T>(s: seq<T>, p: T -> bool)
    requires forall i :: 0 <= i < |s| ==> !p(s[i])
    ensures Filter(s, p) == []
  {
    if s != [] {
      FilterKeepsNone(s[1..], p);
    }
  }

  /** Filtering keeps every occurrence of an element that passes and no
      occurrence of one that fails. */
  lemma {:induction false} FilterOccurrences<T>(s: seq<T>, p: T -> bool, x: T)
    ensures multiset(Filter(s, p))[x] == if p(x) then multiset(s)[x] else 0
  {
    if s != [] {
      FilterOccurrences(s[1..], p, x);
      assert s == [s[0]] + s[1..];
    }
  }

  /** An element the filter rejects drops out between the two filtered sides. */
  lemma {:induction false} FilterDrops<T>(a: seq<T>, x: T, b: seq<T>, p: T -> bool)
    requires !p(x)
    ensures Filter(a + [x] + b, p) == Filter(a, p) + Filter(b, p)
  {
    FilterConcat(a + [x], b, p);
    FilterConcat(a, [x], p);
  }

  /** Filtering the prefix before position `k`, the element at `k`, and the suffix after it. */
  lemma {:induction false} FilterAround<T>(s: seq<T>, k: nat, p: T -> bool)
    requires k < |s|
    ensures Filter(s, p) == Filter(s[..k], p) + Filter([s[k]], p) + Filter(s[k+1..], p)
  {
    var a, b := s[..k], s[k+1..];
    assert s == a + ([s[k]] + b);
    FilterConcat(a, [s[k]] + b, p);
    FilterConcat([s[k]], b, p);
    var fa, fk, fb := Filter(a, p), Filter([s[k]], p), Filter(b, p);
    assert fa + (fk + fb) == fa + fk + fb;
  }

  lemma AppendAssoc<T>(a: seq<T>, b: seq<T>, c: seq<T>)
    ensures a + b + c == a + (b + c)
  {
  }

  /** Two predicates that no element satisfies together select at most
      `|s|` elements between them. */
  lemma {:induction false} FilterDisjointCount<T>(s: seq<T>, p: T -> bool, q: T -> bool)
    requires forall i :: 0 <= i < |s| ==> !(p(s[i]) && q(s[i]))
    ensures |Filter(s, p)| + |Filter(s, q)| <= |s|
  {
    if s != [] {
      FilterDisjointCount(s[1..], p, q);
    }
  }

  /** `a` can be obtained from `b` by deleting elements (greedy matching decides it). */
  predicate IsSubsequence<T(==)>(a: seq<T>, b: seq<T>)
    decreases |b|
  {
    if a == [] then true
    else if b == [] then false
    else if a[0] == b[0] then IsSubsequence(a[1..], b[1..])
    else IsSubsequence(a, b[1..])
  }

  lemma {:induction false} SubsequenceOfTail<T>(a: seq<T>, b: seq<T>)
    requires b != [] && IsSubsequence(a, b[1..])
    ensures IsSubsequence(a, b)
    decreases |a| + |b|
  {
    if a != [] && a[0] == b[0] {
      SubsequenceOfRest(a, b[1..]);
    }
  }

  lemma {:induction false} SubsequenceOfRest<T>(a: seq<T>, b: seq<T>)
    requires a != [] && IsSubsequence(a, b)
    ensures IsSubsequence(a[1..], b)
    decreases |a| + |b|
  {
    if a[0] == b[0] {
      SubsequenceOfTail(a[1..], b);
    } else {
      SubsequenceOfRest(a, b[1..]);
      SubsequenceOfTail(a[1..], b);
    }
  }

  /** What holds of every element of `b` holds of every element of a subsequence of `b`. */
  lemma {:induction false} SubsequenceKeepsAll<T>(a: seq<T>, b: seq<T>, p: T -> bool)
    requires IsSubsequence(a, b)
    requires forall i :: 0 <= i < |b| ==> p(b[i])
    ensures forall i :: 0 <= i < |a| ==> p(a[i])
    decreases |b|
  {
    if a != [] {
      if a[0] == b[0] {
        SubsequenceKeepsAll(a[1..], b[1..], p);
        assert forall i :: 1 <= i < |a| ==> a[i] == a[1..][i - 1];
      } else {
        SubsequenceKeepsAll(a, b[1..], p);
      }
    }
  }

  lemma {:induction false} FilterIsSubsequence<T>(s: seq<T>, p: T -> bool)
    ensures IsSubsequence(Filter(s, p), s)
  {
    if s != [] {
      FilterIsSubsequence(s[1..], p);
      if p(s[0]) {
        assert Filter(s, p)[1..] == Filter(s[1..], p);
      } else {
        assert Filter(s, p) == Filter(s[1..], p);
        SubsequenceOfTail(Filter(s, p), s);
      }
    }
  }

  /** `Array.prototype.map`. */
  function Map<T, U>(s: seq<T>, f: T -> U): (r: seq<U>)
    ensures |r| == |s|
    ensures forall i :: 0 <= i < |s| ==> r[i] == f(s[i])
  {
    if s == [] then [] else [f(s[0])] + Map(s[1..], f)
  }

  lemma {:induction false} MapConcat<T, U>(a: seq<T>, b: seq<T>, f: T -> U)
    ensures Map(a + b, f) == Map(a, f) + Map(b, f)
  {
    if a == [] {
      assert a + b == b;
    } else {
      assert (a + b)[1..] == a[1..] + b;
      MapConcat(a[1..], b, f);
    }
  }

  /** The concatenation of a sequence of sequences. */
  function Flatten<T>(ss: seq<seq<T>>): (r: seq<T>)
    ensures forall i :: 0 <= i < |ss| ==> |ss[i]| <= |r|
  {
    if ss == [] then [] else ss[0] + Flatten(ss[1..])
  }

  lemma {:induction false} FlattenConcat<T>(a: seq<seq<T>>, b: seq<seq<T>>)
    ensures Flatten(a + b) == Flatten(a) + Flatten(b)
  {
    if a == [] {
      assert a + b == b;
    } else {
      assert (a + b)[1..] == a[1..] + b;
      FlattenConcat(a[1..], b);
    }
  }

  /** `[1, 2, ..., n]`, JavaScript's `Array.from({ length: n }, (_, i) => i + 1)`. */
  function OneTo(n: nat): (r: seq<int>)
    ensures |r| == n
    ensures forall i :: 0 <= i < n ==> r[i] == i + 1
  {
    seq(n, i => i + 1)
  }

  /** Consecutive slices of `size` elements, the last one possibly shorter: the
      `for (i = 0; i < s.length; i += size) s.slice(i, i + size)` loop. Together
      the three properties below determine the chunks uniquely. */
  function Chunks<T>(s: seq<T>, size: nat): (r: seq<seq<T>>)
    requires size > 0
    ensures Flatten(r) == s
    ensures forall k :: 0 <= k < |r| ==> 0 < |r[k]| <= size
    ensures forall k :: 0 <= k < |r| - 1 ==> |r[k]| == size
    decreases |s|
  {
    if s == [] then []
    else if |s| <= size then
      assert Flatten([s]) == s + [];
      [s]
    else
      var rest := Chunks(s[size..], size);
      assert s == s[..size] + s[size..];
      [s[..size]] + rest
  }

  predicate StrictlyIncreasing(s: seq<int>) {
    forall i, j :: 0 <= i < j < |s| ==> s[i] < s[j]
  }

  lemma {:induction false} NonEmptyHasElement(s: set<int>)
    requires s != {}
    ensures exists x :: x in s
  {
    if forall x :: x !in s {
      assert false;
    }
  }

  lemma {:induction false} LeastExists(s: set<int>)
    requires s != {}
    ensures exists m :: m in s && forall x :: x in s ==> m <= x
    decreases |s|
  {
    NonEmptyHasElement(s);
    var y :| y in s;
    if s - {y} != {} {
      LeastExists(s - {y});
      var m :| m in s - {y} && forall x :: x in s - {y} ==> m <= x;
      var least := if y < m then y else m;
      forall x | x in s ensures least <= x {
        if x != y { assert x in s - {y}; }
      }
    } else {
      forall x | x in s ensures y <= x {
        assert x !in s - {y};
      }
    }
  }

  function Least(s: set<int>): (m: int)
    requires s != {}
    ensures m in s && forall x :: x in s ==> m <= x
  {
    LeastExists(s);
    var m :| m in s && forall x :: x in s ==> m <= x; m
  }

  /** The elements of a finite set of integers in ascending order: JavaScript's
      `Array.from(set).sort((a, b) => a - b)`. */
  function SortedElements(s: set<int>): (r: seq<int>)
    ensures StrictlyIncreasing(r)
    ensures forall x :: x in r <==> x in s
    ensures |r| == |s|
    decreases |s|
  {
    if s == {} then []
    else
      var m := Least(s);
      var rest := SortedElements(s - {m});
      assert forall x :: x in rest ==> m < x;
      [m] + rest
  }
}

=== FILE: strings.dfy ===
/** The JavaScript string operations the pipeline uses: `trim`, `indexOf`,
    `lastIndexOf`, `replace` of the first occurrence, `replaceAll`, `includes`,
    `join` and `split`. Strings are sequences of characters; lengths count
    characters. */
module Strings {
  import opened Js

  /** ECMAScript WhiteSpace and LineTerminator: what `trim()` removes and what
      the regex class `\s` matches. */
  predicate IsWhiteSpace(c: char) {
    || c == '\t' || c == '\n' || c == '\U{000B}' || c == '\U{000C}' || c == '\r'
    || c == ' ' || c == '\U{00A0}' || c == '\U{1680}' || '\U{2000}' <= c <= '\U{200A}'
    || c == '\U{2028}' || c == '\U{2029}' || c == '\U{202F}' || c == '\U{205F}'
    || c == '\U{3000}' || c == '\U{FEFF}'
  }

  predicate AllWhiteSpace(s: string) {
    forall i :: 0 <= i < |s| ==> IsWhiteSpace(s[i])
  }

  function TrimStart(s: string): (r: string)
    ensures |r| <= |s| && r == s[|s| - |r|..]
    ensures AllWhiteSpace(s[..|s| - |r|])
    ensures r == [] || !IsWhiteSpace(r[0])
  {
    if s != [] && IsWhiteSpace(s[0]) then TrimStart(s[1..]) else s
  }

  function TrimEnd(s: string): (r: string)
    ensures |r| <= |s| && r == s[..|r|]
    ensures AllWhiteSpace(s[|r|..])
    ensures r == [] || !IsWhiteSpace(r[|r| - 1])
  {
    if s != [] && IsWhiteSpace(s[|s| - 1]) then TrimEnd(s[..|s| - 1]) else s
  }

  /** `String.prototype.trim`: white space is dropped from both ends. */
  function Trim(s: string): (r: string)
    ensures r == [] || (!IsWhiteSpace(r[0]) && !IsWhiteSpace(r[|r| - 1]))
  {
    var t := TrimStart(s);
    var r := TrimEnd(t);
    assert r != [] ==> r[0] == t[0];
    r
  }

  /** What trimming keeps is a slice of the input with only white space around it. */
  lemma {:induction false} TrimIsSlice(s: string)
    ensures exists i :: PaddedAt(s, Trim(s), i)
  {
    var t := TrimStart(s);
    var r := TrimEnd(t);
    var i := |s| - |t|;
    assert r == s[i..i + |r|];
    assert s[i + |r|..] == t[|r|..];
    assert Trim(s) == r;
    assert PaddedAt(s, r, i);
  }

  /** `r` sits in `s` at `i` with only white space before and after it. */
  predicate PaddedAt(s: string, r: string, i: int) {
    0 <= i <= |s| - |r| && r == s[i..i + |r|] && AllWhiteSpace(s[..i]) && AllWhiteSpace(s[i + |r|..])
  }

  lemma {:induction false} TrimWithoutWhiteSpace(s: string)
    requires forall i :: 0 <= i < |s| ==> !IsWhiteSpace(s[i])
    ensures Trim(s) == s
  {
    var t := TrimStart(s);
    var r := TrimEnd(t);
  }

  /** A string that starts and ends with visible characters is its own trim. */
  lemma {:induction false} TrimKeepsEnds(s: string)
    requires s != [] && !IsWhiteSpace(s[0]) && !IsWhiteSpace(s[|s| - 1])
    ensures Trim(s) == s
  {
    var t := TrimStart(s);
    var r := TrimEnd(t);
  }

  /** A trimmed string has nothing left to trim. */
  lemma {:induction false} TrimIdempotent(s: string)
    ensures Trim(Trim(s)) == Trim(s)
  {
    var r := Trim(s);
    var t := TrimStart(r);
    var u := TrimEnd(t);
  }

  /** Trimming leaves nothing exactly when the string is all white space. */
  lemma {:induction false} TrimEmpty(s: string)
    ensures Trim(s) == [] <==> AllWhiteSpace(s)
  {
    var t := TrimStart(s);
    var r := TrimEnd(t);
  }

  /** `s.indexOf(c)`: the position of the first `c`, or `None` for -1. */
  function IndexOf(s: string, c: char): (r: Option<nat>)
    ensures r.None? <==> c !in s
    ensures r.Some? ==> r.value < |s| && s[r.value] == c && c !in s[..r.value]
  {
    if s == [] then None
    else if s[0] == c then Some(0)
    else match IndexOf(s[1..], c)
      case None => None
      case Some(k) =>
        assert s[..k + 1] == [s[0]] + s[1..][..k];
        Some(k + 1)
  }

  /** `s.lastIndexOf(c)`: the position of the last `c`, or `None` for -1. */
  function LastIndexOf(s: string, c: char): (r: Option<nat>)
    ensures r.None? <==> c !in s
    ensures r.Some? ==> r.value < |s| && s[r.value] == c && c !in s[r.value + 1..]
  {
    if s == [] then None
    else if s[|s| - 1] == c then Some(|s| - 1)
    else
      var r := LastIndexOf(s[..|s| - 1], c);
      if r.Some? then
        assert s[r.value + 1..] == s[..|s| - 1][r.value + 1..] + [s[|s| - 1]];
        r
      else
        assert s == s[..|s| - 1] + [s[|s| - 1]];
        r
  }

  /** `s.replace(c, d)` with a one-character string pattern: only the first
      occurrence is replaced. */
  function ReplaceFirst(s: string, c: char, d: char): (r: string)
    ensures |r| == |s|
    ensures c !in s ==> r == s
    ensures c in s ==> exists k :: 0 <= k < |s| && s[k] == c && c !in s[..k]
                                   && r == s[..k] + [d] + s[k + 1..]
  {
    match IndexOf(s, c)
    case None => s
    case Some(k) => s[..k] + [d] + s[k + 1..]
  }

  /** The first `c` of `a + [c] + b` is the one between `a` and `b` when `a` has none. */
  lemma {:induction false} IndexOfAfter(a: string, c: char, b: string)
    requires c !in a
    ensures IndexOf(a + [c] + b, c) == Some(|a|)
    ensures (a + [c] + b)[..|a|] == a && (a + [c] + b)[|a| + 1..] == b
  {
    var s := a + [c] + b;
    assert s[|a|] == c;
    assert s[..|a|] == a;
  }

  lemma {:induction false} ReplaceFirstAfter(a: string, b: string, c: char, d: char)
    requires c !in a
    ensures ReplaceFirst(a + [c] + b, c, d) == a + [d] + b
  {
    var s := a + [c] + b;
    assert s[|a|] == c;
    var k := IndexOf(s, c).value;
    assert k == |a|;
    assert s[..k] == a;
    assert s[k + 1..] == b;
  }

  /** `s.replaceAll(pat, rep)` with a string pattern: occurrences are found left
      to right and do not overlap. */
  function ReplaceAll(s: string, pat: string, rep: string): (r: string)
    requires pat != []
    decreases |s|
  {
    if |s| < |pat| then s
    else if s[..|pat|] == pat then rep + ReplaceAll(s[|pat|..], pat, rep)
    else [s[0]] + ReplaceAll(s[1..], pat, rep)
  }

  /** A prefix free of the pattern's first character passes through unchanged. */
  lemma {:induction false} ReplaceAllSkips(u: string, rest: string, pat: string, rep: string)
    requires pat != [] && pat[0] !in u
    ensures ReplaceAll(u + rest, pat, rep) == u + ReplaceAll(rest, pat, rep)
  {
    if u != [] {
      var s := u + rest;
      assert s[1..] == u[1..] + rest;
      ReplaceAllSkips(u[1..], rest, pat, rep);
      if |s| >= |pat| {
        assert s[..|pat|][0] == u[0] != pat[0];
        calc {
          ReplaceAll(s, pat, rep);
          [s[0]] + ReplaceAll(s[1..], pat, rep);
          [u[0]] + (u[1..] + ReplaceAll(rest, pat, rep));
          { assert [u[0]] + u[1..] == u; }
          u + ReplaceAll(rest, pat, rep);
        }
      } else {
        assert |rest| < |pat|;
      }
    } else {
      assert u + rest == rest;
    }
  }

  /** An occurrence at the front is replaced. */
  lemma {:induction false} ReplaceAllAtFront(rest: string, pat: string, rep: string)
    requires pat != []
    ensures ReplaceAll(pat + rest, pat, rep) == rep + ReplaceAll(rest, pat, rep)
  {
    assert (pat + rest)[..|pat|] == pat;
    assert (pat + rest)[|pat|..] == rest;
  }

  /** With a one-character pattern no occurrence spans a boundary, so
      `replaceAll` distributes over concatenation. */
  lemma {:induction false} ReplaceAllCharConcat(a: string, b: string, c: char, rep: string)
    ensures ReplaceAll(a + b, [c], rep) == ReplaceAll(a, [c], rep) + ReplaceAll(b, [c], rep)
  {
    if a == [] {
      assert a + b == b;
    } else {
      assert (a + b)[1..] == a[1..] + b;
      ReplaceAllCharConcat(a[1..], b, c, rep);
    }
  }

  /** A string free of the pattern's character is left alone. */
  lemma {:induction false} ReplaceAllAbsent(s: string, c: char, rep: string)
    requires c !in s
    ensures ReplaceAll(s, [c], rep) == s
  {
    ReplaceAllSkips(s, [], [c], rep);
    assert s + [] == s;
  }

  /** The pattern's character on its own becomes the replacement. */
  lemma {:induction false} ReplaceAllSingle(c: char, rep: string)
    ensures ReplaceAll([c], [c], rep) == rep
  {
    ReplaceAllAtFront([], [c], rep);
    assert [c] + [] == [c];
  }

  /** A character in neither the input nor the replacement is not in the output. */
  lemma {:induction false} ReplaceAllAvoids(s: string, pat: string, rep: string, x: char)
    requires pat != [] && x !in s && x !in rep
    ensures x !in ReplaceAll(s, pat, rep)
    decreases |s|
  {
    if |s| >= |pat| {
      if s[..|pat|] == pat {
        ReplaceAllAvoids(s[|pat|..], pat, rep, x);
      } else {
        ReplaceAllAvoids(s[1..], pat, rep, x);
      }
    }
  }

  /** `s.includes(q)`. */
  predicate Contains(s: string, q: string) {
    exists i | 0 <= i <= |s| - |q| :: OccursAt(s, q, i)
  }

  predicate OccursAt(s: string, q: string, i: int) {
    0 <= i <= |s| - |q| && s[i..i + |q|] == q
  }

  /** `parts.join(sep)`. */
  function Join(parts: seq<string>, sep: string): string {
    if parts == [] then ""
    else if |parts| == 1 then parts[0]
    else parts[0] + sep + Join(parts[1..], sep)
  }

  /** Joining a list of two or more parts: the first part, the separator, the rest joined. */
  lemma {:induction false} JoinCons(p: string, rest: seq<string>, sep: string)
    requires rest != []
    ensures Join([p] + rest, sep) == p + sep + Join(rest, sep)
  {
    assert ([p] + rest)[1..] == rest;
  }

  /** A five-part join, with its first two separators spelled out. */
  lemma {:induction false} JoinFive(a: string, b: string, c: string, d: string, e: string, sep: string)
    ensures Join([a, b, c, d, e], sep) == a + sep + (b + sep + Join([c, d, e], sep))
  {
    assert [a, b, c, d, e] == [a] + [b, c, d, e];
    JoinCons(a, [b, c, d, e], sep);
    assert [b, c, d, e] == [b] + [c, d, e];
    JoinCons(b, [c, d, e], sep);
  }

  /** Moving a separated part from the end of the first piece to the front of the second. */
  lemma SeparatorShift(a: string, b: string, c: string, j: string, sep: string)
    ensures (a + sep + b) + sep + (c + sep + j) == a + sep + ((b + sep + c) + sep + j)
  {
  }

  /** A character in no part and not in the separator is not in the join. */
  lemma {:induction false} JoinAvoids(parts: seq<string>, sep: string, x: char)
    requires forall k :: 0 <= k < |parts| ==> x !in parts[k]
    requires x !in sep
    ensures x !in Join(parts, sep)
  {
    if |parts| > 1 {
      JoinAvoids(parts[1..], sep, x);
    }
  }

  /** `s.split(sep)` with a one-character separator: the pieces between separators,
      one more than there are separators. */
  function Split(s: string, sep: char): (r: seq<string>)
    ensures |r| > 0
    ensures forall k :: 0 <= k < |r| ==> sep !in r[k]
  {
    match IndexOf(s, sep)
    case None => [s]
    case Some(k) =>
      assert sep !in s[..k];
      [s[..k]] + Split(s[k + 1..], sep)
  }

  /** Splitting a joined list recovers the list, provided no part contains the separator. */
  lemma {:induction false} SplitJoin(parts: seq<string>, sep: char)
    requires parts != []
    requires forall k :: 0 <= k < |parts| ==> sep !in parts[k]
    ensures Split(Join(parts, [sep]), sep) == parts
  {
    if |parts| > 1 {
      var rest := Join(parts[1..], [sep]);
      var s := parts[0] + [sep] + rest;
      assert s[..|parts[0]|] == parts[0];
      assert s[|parts[0]|] == sep;
      assert IndexOf(s, sep) == Some(|parts[0]|);
      assert s[|parts[0]| + 1..] == rest;
      SplitJoin(parts[1..], sep);
    }
  }
}
